=== FILE: README.md ===
# clouder.model core in Dafny

A model of the abstract base model `clouder.model` of Clouder, an Odoo
add-on that drives servers and containers over SSH. It covers:

- `connect`: the process-wide SSH session cache (`ssh_connections`), its key
  scheme, how an ssh-config entry fills in the user, port and key file, and
  each way the call fails;
- `execute`: the command line sent to the host (`docker exec NAME` for
  containers, `cd PATH;` for a working directory), what it logs and what it
  returns;
- `send`: the relay a container needs (a staging directory on the host, an
  sftp put, a pipe into `docker exec -i`, then cleanup), and `exist`;
- `log`: the `string.printable` filter and the timestamped trace appended to
  matching queue jobs;
- the lifecycle: `create` (deploy, or log a banner, unlink and re-raise),
  `unlink` (purge with errors swallowed, delete, clear the record's logs),
  the default hooks `deploy`, `purge`, `deploy_links` and `purge_links`;
- `enqueue` with its job description, `reinstall`, and
  `generate_random_password`.

Modules:

- `Wrappers`: `Option` and `Result`.
- `Text`: Python truthiness, `join`/`split`, the printable filter.
- `Records`: records and the host a record runs on.
- `AuditLog`: jobs and `log`.
- `SessionPool`: `connect`.
- `Executor`: `execute`, `send` and `exist`.
- `Lifecycle`: `create`, `unlink` and the hooks.
- `Dispatch`: `enqueue` and `reinstall`.
- `Passwords`: `generate_random_password`.

The model replaces everything outside the process with parameters:

- the parsed `~/.ssh/config` (`SshConfig`);
- the answer of `ssh.connect` (`dial`);
- what a remote command prints, or the error running it raises (`remote`);
- the answer of `sftp.stat`;
- the clock reading (a string);
- the queue's uuid;
- the random draws;
- the hooks outside this file (`Hooks`): a link's `deploy_` and `purge_`, and the work an inheriting model adds to `deploy` (`provision`) and to `purge` (`dismantle`). The model runs each addition after the base hook returns, as an override that calls the base method first does.

The lifecycle keeps an ordered event trace, so that hook order and
the rollback sequence can be stated.

The model follows the code as written where it surprises. `connect` dials the
record's host name, not the `hostname` the ssh config gives. The cache key
cannot tell a port-only call from a username-only call. For a container with a
working directory, `execute` sends `docker exec NAME cd PATH; TOKENS`. The
remote shell ends the `docker exec` command at the `;`, so the caller's tokens
run on the host, not in the container
(`Executor.NestedPathSplitsAtSemicolon`).

## Model

| member | source | states |
|---|---|---|
| `Text.Join` | clouder/clouder_model.py:382-383 | `' '.join`: the empty list joins to the empty string; otherwise the join starts with the first element, followed by the separator when there is a second |
| `Text.JoinLength` | clouder/clouder_model.py:382-383 | the join is as long as the elements together plus one separator per neighbouring pair |
| `Text.Split` | clouder/clouder_model.py:382-383 | splitting at a separator always yields at least one piece, the reading-back partner of `Join` |
| `Text.JoinSplit` | clouder/clouder_model.py:382-383 | joining the pieces of any split gives back the original string |
| `Text.SplitJoin` | clouder/clouder_model.py:382-383 | splitting the join of a non-empty list whose elements avoid the separator gives back the list |
| `Text.JoinAvoids` | clouder/clouder_model.py:382-383 | a character in neither the separator nor any element is absent from the join |
| `Text.JoinAppend` | clouder/clouder_model.py:382-383 | the join of two non-empty lists is their joins with one separator between |
| `Text.JoinFlatten` | clouder/clouder_model.py:376-383 | an inserted token that is itself a join contributes the same text as its words inserted one by one |
| `Text.SplitNoSep` | clouder/clouder_model.py:382-383 | a string without the separator splits into itself alone |
| `Text.SplitAfter` | clouder/clouder_model.py:382-383 | splitting at the first separator gives the part before it, then the split of the rest |
| `Text.FilterPrintable` | clouder/clouder_model.py:175 | the filtered message is no longer than the message, holds only `string.printable` characters, and equals the message when it was already printable |
| `Text.FilterConcat` | clouder/clouder_model.py:175 | the filter works character by character: filtering a concatenation filters each part |
| `Text.FilterOne` | clouder/clouder_model.py:175 | a single character is kept exactly when it is printable |
| `Text.FilterIdempotent` | clouder/clouder_model.py:175 | filtering twice is the same as filtering once |
| `Records.HostOf` | clouder/clouder_model.py:281-283 | a container's host is its `server_id` (a clouder.server record, with that server's name), and none when it has no server; every other record is its own host |
| `Records.NestedIffContainer` | clouder/clouder_model.py:378-379 | `self != server` holds exactly for containers |
| `AuditLog.AppendTraces` | clouder/clouder_model.py:180-183 | every job with the uuid gets the line appended to its trace (an unset trace counts as empty); every other job is unchanged; the table keeps its length |
| `AuditLog.TraceLine` | clouder/clouder_model.py:181-183 | a trace line is the timestamp, ` : `, the message and a newline, each recoverable by position |
| `AuditLog.Log` | clouder/clouder_model.py:167-183 | the process-log line is the filtered message; without a `job_uuid` the job table is untouched; with one, exactly the matching jobs gain `stamp : message` and a newline |
| `AuditLog.LogExtendsTraces` | clouder/clouder_model.py:180-183 | logging only extends traces: each old trace is a prefix of the new one |
| `AuditLog.LogLineIsPrintable` | clouder/clouder_model.py:174-183 | with a printable timestamp, the whole line a trace gains is printable |
| `SessionPool.CacheKey` | clouder/clouder_model.py:286-288 | the key starts with the host name; it is the bare host name exactly when neither port nor username is truthy; a truthy port follows the name after `_`, and a lone username does too |
| `SessionPool.CacheKeyIsJoin` | clouder/clouder_model.py:286-288 | the cache key is the `_`-join of the host name and the truthy arguments, port before username |
| `SessionPool.CacheKeyDecodes` | clouder/clouder_model.py:286-288 | when no part contains `_`, splitting the key at `_` gives back the host name and the given arguments |
| `SessionPool.CacheKeyAmbiguous` | clouder/clouder_model.py:286-288 | a port-only call and a username-only call with the same text share one key |
| `SessionPool.Fill` | clouder/clouder_model.py:306-309 | a truthy argument wins; otherwise the config's value is used; a missing config key is an error exactly when the argument is falsy, and that error is the KeyError naming the key |
| `SessionPool.KeyFile` | clouder/clouder_model.py:324-335 | a list-valued identityfile uses its first element; an empty list (the IndexError) or a value that is not text (the "invalid identityfile" data error) is an error, each with its own value, and nothing else is |
| `SessionPool.ParsePort` | clouder/clouder_model.py:341 | `int(port)` succeeds exactly on a non-empty run of digits, and its value is the decimal number the digits denote |
| `SessionPool.DigitsValue` | clouder/clouder_model.py:341 | the value of a digit run: a single digit is its own value, and the last digit is the value modulo 10 |
| `SessionPool.ConnectLine` | clouder/clouder_model.py:337-338 | the logged line is exactly `connect: ssh `, `USER@` when a user is known, the host name, and ` -p PORT` when a port is known: the start, the end and the total length pin every character |
| `SessionPool.Plan` | clouder/clouder_model.py:300-341 | a request is built exactly when there is an identityfile, its key file is usable, the user and port can be filled in and the port parses; no identityfile is the "no record in the ssh config" error carrying the record's name; a built request dials the host's name (not the config's hostname), with the filled-in user, parsed port and key file; otherwise the error is the first met in source order: the missing `user` key, the missing `port` key, the key-file error, then for a port that is not a number the "Connect error!" naming the target with `int()`'s message |
| `SessionPool.Open` | clouder/clouder_model.py:292-353 | a miss succeeds exactly when the request can be built and the dial connects, and then returns the dialled session and logs exactly the `connect: ssh [USER@]HOST[ -p PORT]` line built from the filled-in user and port |
| `SessionPool.Connect` | clouder/clouder_model.py:271-358 | fails with a missing server exactly for a container without `server_id`; a live cached session is returned with the cache untouched and nothing logged; otherwise success is that of the connect attempt, whose session and logged line it returns; on success the cache is the old one with the key set to the returned session |
| `SessionPool.MissTouchesOnlyKey` | clouder/clouder_model.py:289-356 | a successful acquisition changes no cache entry but its own key |
| `SessionPool.RepeatAcquireReuses` | clouder/clouder_model.py:289-290 | acquiring the same key again while the session is alive returns that session and leaves the cache alone, whatever the config and the dial say |
| `SessionPool.DeadSessionReplaced` | clouder/clouder_model.py:289-354 | a cached session without a transport is replaced by the newly dialled one |
| `SessionPool.NoIdentityFails` | clouder/clouder_model.py:302-320 | on a cache miss, a host with no identityfile makes the call fail with that error |
| `SessionPool.RefusedDialFails` | clouder/clouder_model.py:340-353 | a refused connect attempt is the connect error naming the target and the reason |
| `SessionPool.KeyIgnoresConfig` | clouder/clouder_model.py:286-288 | the key and host depend on the record and the arguments only: two successful calls under any two configurations store under the same keys |
| `Executor.CommandLine` | clouder/clouder_model.py:374-383 | the sent line opens with `docker exec NAME` for a nested record, else with `cd PATH;` when a path is given, and is the plain join of the caller's tokens otherwise |
| `Executor.CommandShape` | clouder/clouder_model.py:374-383 | read back as space-separated words, the command is `docker exec NAME` (containers only), then `cd PATH;` (when a path is given), then the caller's tokens |
| `Executor.NestedPathSplitsAtSemicolon` | clouder/clouder_model.py:374-383 | for a container with a path, the `;` ends the `docker exec` command, so the caller's tokens form a second command outside the container |
| `Executor.NestedPathLine` | clouder/clouder_model.py:374-383 | the container-with-path command line is `docker exec NAME cd PATH`, a `;`, then the tokens |
| `Executor.Execute` | clouder/clouder_model.py:360-392 | fails with the connect error exactly when `connect()` with no port or username fails; otherwise succeeds exactly when the session runs the built command line, and fails with the session's error when it cannot; on success returns the remote's stdout, and logs the connect lines followed by exactly the `ExecLog` lines: path (when given), host, command, each stdin argument, stdout, stderr |
| `Executor.ExecLog` | clouder/clouder_model.py:374-391 | the lines logged after connecting, in order: path (when given), host, command, one line per stdin argument, stdout, stderr |
| `Executor.ExecuteIgnoresStderr` | clouder/clouder_model.py:383-392 | two remotes that fail alike and print the same stdout give the same return value and command, whatever their stderr |
| `Executor.CachedSessionCanStillFail` | clouder/clouder_model.py:289-290 | a live cached session is reused without a new connect, and a command it cannot run still fails with the session's error |
| `Executor.SendPlan` | clouder/clouder_model.py:418-445 | a record that is its own host gets a direct put to the destination; a container gets four steps: `mkdir -p TMP` on the host, a put to `TMP/file`, the host command `cat TMP/file \| docker exec -i NAME sh -c 'cat > DEST'` token by token, and `rm -rf TMP`, with `TMP` the clock-stamped directory |
| `Executor.HostCommandsUnwrapped` | clouder/clouder_model.py:435-445 | the host's own `execute` of a relay step sends its tokens unwrapped |
| `Executor.Exist` | clouder/clouder_model.py:471-489 | true exactly when the stat succeeds; false exactly on IOError ENOENT; every other error propagates unchanged |
| `Lifecycle.RunLinks` | clouder/clouder_model.py:210-220 | links are called in collection order; the loop returns exactly when every hook returns; a raise comes from the last link called, after every earlier one returned |
| `Lifecycle.DeployLinks` | clouder/clouder_model.py:204-211 | without `link_ids` a no-op; otherwise the links' events follow the hook's own; it returns exactly when every link's `deploy_` returns, and then every link was called in order |
| `Lifecycle.PurgeLinks` | clouder/clouder_model.py:213-220 | as for `deploy_links` with `purge_`, in collection order (not reversed); every event after the hook's own is a link purge |
| `Lifecycle.Purge` | clouder/clouder_model.py:192-202 | `purge` enters the hook, then its trace is exactly that of `purge_links`, followed by the inheriting model's purge work only when every link purge returned; no link is deployed; it returns exactly when the link purges and that work return, and otherwise re-raises the failing one |
| `Lifecycle.Deploy` | clouder/clouder_model.py:186-193 | `deploy` enters the hook, then its trace is exactly the whole purge, followed by the inheriting model's provisioning only when the purge returned; no link is deployed; it returns exactly when both return, and otherwise re-raises the failing one |
| `Lifecycle.PurgeBeforeProvision` | clouder/clouder_model.py:186-202 | when provisioning runs, the trace is deploy, purge, purge_links, every link purged in collection order, the purge work, and only then the provisioning |
| `Lifecycle.PurgedTrace` | clouder/clouder_model.py:186-202 | the full `deploy` trace when the whole purge returns |
| `Lifecycle.LogLine` | clouder/clouder_model.py:167-183 | a `log` call inside the lifecycle adds the filtered line to the trace and changes no store, log entry or context |
| `Lifecycle.BannersPrintable` | clouder/clouder_model.py:242-244 | the failure banners pass the printable filter unchanged |
| `Lifecycle.RemoveRows` | clouder/clouder_model.py:266-268 | the clouder.log rows kept are exactly those not addressed to the record |
| `Lifecycle.DropLogContext` | clouder/clouder_model.py:261-265 | the record's `logs[model][id]` entry is gone; every other entry and every model key is kept |
| `Lifecycle.Unlink` | clouder/clouder_model.py:251-269 | the record leaves the store; no log entry or row of it is left, and every other entry is kept, including other ids under the record's own model, as are the other rows; jobs are untouched; the trace is the purge's events then the delete |
| `Lifecycle.UnlinkIgnoresPurgeOutcome` | clouder/clouder_model.py:256-259 | how purge ends makes no difference to what unlink deletes |
| `Lifecycle.Opened` | clouder/clouder_model.py:237-238 | the state `create` deploys from: the record stored and its create log opened, with nothing else changed |
| `Lifecycle.LogBanner` | clouder/clouder_model.py:242-244 | the three banner lines are logged in order, rule, fail, rule, and nothing stored changes |
| `Lifecycle.Revert` | clouder/clouder_model.py:242-246 | the failure path logs the banner then unlinks: the record is gone with no log trace |
| `Lifecycle.RollBack` | clouder/clouder_model.py:239-247 | after a raising deploy the store is as before `create`, no log trace is left, the same error is re-raised, and the trace is open-log, deploy, banner, purge, delete |
| `Lifecycle.Commit` | clouder/clouder_model.py:248-249 | after a returning deploy the record is stored and the log closed |
| `Lifecycle.Create` | clouder/clouder_model.py:229-249 | without a sysadmin email nothing changes and the data error is raised; the record is stored exactly when `create` returns; on success the store gains the record and the trace is open-log, deploy, end-log; on a raise the store is as before, no log trace is left, the deploy's error is re-raised, the banner follows the deploy's events and the delete comes last |
| `Lifecycle.CheckConfig` | clouder/clouder_model.py:147-157 | the configuration check passes exactly when the sysadmin email is set and non-empty |
| `Lifecycle.CreateAllOrNothing` | clouder/clouder_model.py:229-249 | after `create` the record is stored exactly when every link purge, the purge work and the provisioning returned |
| `Dispatch.Description` | clouder/clouder_model.py:163 | the description is the function name, ` - `, then the record's name |
| `Dispatch.WriteResId` | clouder/clouder_model.py:164-165 | every job with the uuid gets the record's id as `res_id`; the others are unchanged |
| `Dispatch.Enqueue` | clouder/clouder_model.py:159-165 | one job is added, calling the function on the record with that description and the record's id as `res_id`; older jobs with the same uuid also get the id; the rest are unchanged |
| `Dispatch.JobsOf` | clouder/clouder_model.py:164-165 | a record's jobs are exactly those of its model whose `res_id` is its id |
| `Dispatch.EnqueuedJobListed` | clouder/clouder_model.py:159-165 | the new job is found among the record's jobs, with the uuid and the function name |
| `Dispatch.EnqueueKeepsListings` | clouder/clouder_model.py:159-165 | enqueueing under a fresh uuid keeps every job already listed for any record |
| `Dispatch.Reinstall` | clouder/clouder_model.py:222-227 | reinstall adds one job under the queue's uuid that will call `deploy` on this record, described as `deploy - NAME` and listed for the record; older jobs are unchanged except that those sharing the uuid get the record's id |
| `Passwords.IndexOf` | clouder/clouder_model.py:529-530 | every letter or digit has a position in the alphabet |
| `Passwords.AlphabetIsAlnum` | clouder/clouder_model.py:529-530 | the alphabet has 62 characters, each a letter or a digit, and holds every letter and digit |
| `Passwords.Password` | clouder/clouder_model.py:522-531 | the password has `size` characters (none for a negative size), the i-th the alphabet character the i-th draw picks |
| `Passwords.PasswordIsAlnum` | clouder/clouder_model.py:522-531 | every password consists of letters and digits only |
| `Passwords.IndexPicks` | clouder/clouder_model.py:529-530 | drawing a character's own position picks that character |
| `Passwords.PasswordMatches` | clouder/clouder_model.py:528-531 | draws that pick the characters of a string one by one produce that string |
| `Passwords.EveryAlnumStringReachable` | clouder/clouder_model.py:522-531 | every string of letters and digits is a possible password of its length |

## Left out

- `get` (lines 394-416) is not modelled. As written it cannot run for a container: it calls `self.insert`, and it passes a host name as `connect`'s port.
- `execute_local`, `local_file_exist`, `local_dir_exist` and `execute_write_file` are not modelled. They act only on the local file system and processes.
- The clock and home-directory properties (`now_date`, `now_bup` and the others) are not modelled. A clock reading is passed in as a string.
- `create_log` and `end_log` are defined outside this file. They appear only as the `LogOpened` and `LogEnded` events.
- The queue itself is not modelled: `connector_enqueue`, job execution and uuid generation. The uuid is a parameter.
- Paramiko is reduced to its answers: SSH and sftp I/O, host-key policy and reading `~/.ssh/config`. `os.path.expanduser` on the key file is not modelled, and neither is the raw text of the stdin writes.
- Concurrency is not modelled: several workers sharing `ssh_connections`, and transactions.
- `execute` inserts into the caller's `cmd` list, and the model does not show that mutation. The model passes the tokens by value.
- The `nosave=True` context set before `unlink` in `create` is not modelled. Only the code behind the hooks reads it.
- The sftp session left open when `put` or `stat` raises is not modelled. It is a resource leak with no effect on the values computed.
- `SessionPool.Open`: on a miss whose port does not parse or whose dial is refused, the source has already logged `connect: ssh ...` (lines 337-338) before it raises at line 341. The model returns only the error and does not carry that line. Whether the trace written by the caller's transaction survives the raise is not modelled.
- `Executor.Execute`: when the session cannot run the command, the source has already logged the path, host and command lines. The model returns only the error and does not carry those lines, for the same reason.
- `SessionPool.ParsePort`: accepts only a non-empty run of ASCII digits, because the model has no whitespace stripping or sign handling. Python's `int()` also accepts surrounding whitespace and a sign. A port it would accept that way is an error in the model.
- `Lifecycle.Unlink`: the store-level deletes (the record at clouder/clouder_model.py:260 and its clouder.log rows at 268) are assumed to succeed. Access rules or a restricting foreign key could make either raise; inside `create`'s rollback that error would then propagate instead of the deploy's, which the model does not represent.
- `Lifecycle.LogLine`: its contract does not restate the effect on the job traces, because that effect is stated once, in `AuditLog.Log`.
- The sysadmin-email check (`_check_config`) is a constraint Odoo runs while storing the record. It is modelled as raising before anything is stored or logged.
- A container whose `server_id` is empty would make `connect` fail while building the key. The model gives this failure its own error, `MissingServer`.

=== FILE: audit_log.dfy ===
/**
 The audit log sink: queue jobs carry a text trace, and `log` appends a
 timestamped, printable-only line to the trace of every job whose uuid is the
 one in the current context.
 */
module AuditLog {
  import opened Wrappers
  import opened Text

  /**
   A queue.job row as this core uses it: `modelName`, `recordId` and `funcName`
   are the arguments the job re-enters the record with, `resId` the id written
   back by `enqueue`, `trace` the `clouder_trace` text (None when unset).
   */
  datatype Job = Job(uuid: string, modelName: string, recordId: nat, funcName: string,
                     description: string, resId: Option<nat>, trace: Option<string>)

  /** `job.clouder_trace or ''`. */
  function TraceText(j: Job): string {
    match j.trace
    case None => ""
    case Some(t) => t
  }

  /** One trace line: the formatted timestamp, `' : '`, the message, a newline. */
  function TraceLine(stamp: string, message: string): (l: string)
    ensures stamp <= l && |l| == |stamp| + |message| + 4
    ensures l[|stamp|..|stamp| + 3] == " : " && l[|stamp| + 3..|l| - 1] == message && l[|l| - 1] == '\n'
  {
    stamp + " : " + message + "\n"
  }

  /** Append `line` to the trace of every job whose uuid is `uuid`, leaving the others alone. */
  function AppendTraces(jobs: seq<Job>, uuid: string, line: string): (r: seq<Job>)
    ensures |r| == |jobs|
    ensures forall i :: 0 <= i < |jobs| && jobs[i].uuid == uuid ==>
              r[i] == jobs[i].(trace := Some(TraceText(jobs[i]) + line))
    ensures forall i :: 0 <= i < |jobs| && jobs[i].uuid != uuid ==> r[i] == jobs[i]
    decreases |jobs|
  {
    if |jobs| == 0 then []
    else
      var head := if jobs[0].uuid == uuid then jobs[0].(trace := Some(TraceText(jobs[0]) + line)) else jobs[0];
      [head] + AppendTraces(jobs[1..], uuid, line)
  }

  /** What one `log` call produces: the line for the process log, and the job table afterwards. */
  datatype LogResult = LogResult(diagnostic: string, jobs: seq<Job>)

  /**
   `log(message)` with `jobUuid` the context's `job_uuid` (None when the key
   is absent) and `stamp` the formatted clock reading.
   */
  function Log(jobs: seq<Job>, jobUuid: Option<string>, message: string, stamp: string): (r: LogResult)
    ensures r.diagnostic == FilterPrintable(message)
    ensures |r.jobs| == |jobs|
    ensures forall i :: 0 <= i < |jobs| && jobUuid == Some(jobs[i].uuid) ==>
              r.jobs[i] == jobs[i].(trace := Some(TraceText(jobs[i]) + TraceLine(stamp, r.diagnostic)))
    ensures forall i :: 0 <= i < |jobs| && jobUuid != Some(jobs[i].uuid) ==> r.jobs[i] == jobs[i]
    ensures (forall i :: 0 <= i < |jobs| ==> jobUuid != Some(jobs[i].uuid)) ==> r.jobs == jobs
  {
    var message := FilterPrintable(message);
    match jobUuid
    case None => LogResult(message, jobs)
    case Some(u) => LogResult(message, AppendTraces(jobs, u, TraceLine(stamp, message)))
  }

  /** Logging only ever extends traces: each old trace is a prefix of the new one. */
  lemma LogExtendsTraces(jobs: seq<Job>, jobUuid: Option<string>, message: string, stamp: string, i: nat)
    requires i < |jobs|
    ensures TraceText(jobs[i]) <= TraceText(Log(jobs, jobUuid, message, stamp).jobs[i])
  {
  }

  /** With a printable timestamp, the whole line a matching trace gains is printable. */
  lemma LogLineIsPrintable(message: string, stamp: string)
    requires forall i :: 0 <= i < |stamp| ==> IsPrintable(stamp[i])
    ensures forall i :: 0 <= i < |TraceLine(stamp, FilterPrintable(message))| ==>
              IsPrintable(TraceLine(stamp, FilterPrintable(message))[i])
  {
  }
}

=== FILE: dispatch.dfy ===
/**
 The async dispatcher: `enqueue` submits a job for a record and writes the
 record's id back on every job with the returned uuid; `reinstall` enqueues
 `deploy`. The queue's own uuid generation is an input.
 */
module Dispatch {
  import opened Wrappers
  import opened Records
  import opened AuditLog

  /** The job description: `func_name + ' - ' + name`. */
  function Description(funcName: string, name: string): (d: string)
    ensures funcName <= d
    ensures |d| == |funcName| + 3 + |name|
    ensures d[|funcName|..|funcName| + 3] == " - " && d[|funcName| + 3..] == name
  {
    funcName + " - " + name
  }

  /** `job_ids.write({'res_id': id})` over the jobs whose uuid is `uuid`. */
  function WriteResId(jobs: seq<Job>, uuid: string, id: nat): (r: seq<Job>)
    ensures |r| == |jobs|
    ensures forall i :: 0 <= i < |jobs| && jobs[i].uuid == uuid ==> r[i] == jobs[i].(resId := Some(id))
    ensures forall i :: 0 <= i < |jobs| && jobs[i].uuid != uuid ==> r[i] == jobs[i]
    decreases |jobs|
  {
    if |jobs| == 0 then []
    else
      var head := if jobs[0].uuid == uuid then jobs[0].(resId := Some(id)) else jobs[0];
      [head] + WriteResId(jobs[1..], uuid, id)
  }

  /**
   `enqueue(func_name)`: the queue adds a job with the given uuid that will
   call `func_name` on the record; then every job with that uuid gets the
   record's id as `res_id`.
   */
  function Enqueue(jobs: seq<Job>, rec: Record, funcName: string, uuid: string): (r: seq<Job>)
    ensures |r| == |jobs| + 1
    ensures r[|jobs|] == Job(uuid, rec.model, rec.id, funcName, Description(funcName, rec.name), Some(rec.id), None)
    ensures forall i :: 0 <= i < |jobs| && jobs[i].uuid == uuid ==> r[i] == jobs[i].(resId := Some(rec.id))
    ensures forall i :: 0 <= i < |jobs| && jobs[i].uuid != uuid ==> r[i] == jobs[i]
  {
    var submitted := Job(uuid, rec.model, rec.id, funcName, Description(funcName, rec.name), None, None);
    var r := WriteResId(jobs + [submitted], uuid, rec.id);
    assert (jobs + [submitted])[|jobs|] == submitted;
    r
  }

  /** The `job_ids` relation: a job belongs to a record when its model and `res_id` are the record's. */
  predicate ListedFor(j: Job, rec: Record) {
    j.modelName == rec.model && j.resId == Some(rec.id)
  }

  /** The record's `job_ids`, in table order. */
  function JobsOf(jobs: seq<Job>, rec: Record): (r: seq<Job>)
    ensures forall j :: j in r <==> j in jobs && ListedFor(j, rec)
    decreases |jobs|
  {
    if |jobs| == 0 then []
    else
      var rest := JobsOf(jobs[1..], rec);
      assert jobs == [jobs[0]] + jobs[1..];
      if ListedFor(jobs[0], rec) then [jobs[0]] + rest else rest
  }

  /** After `enqueue`, the new job is among the record's `job_ids`, so its trace can be found from the record. */
  lemma EnqueuedJobListed(jobs: seq<Job>, rec: Record, funcName: string, uuid: string)
    ensures var r := Enqueue(jobs, rec, funcName, uuid);
            r[|jobs|] in JobsOf(r, rec) && r[|jobs|].uuid == uuid && r[|jobs|].funcName == funcName
  {
  }

  /** Enqueueing keeps every job already listed for any record listed for it. */
  lemma EnqueueKeepsListings(jobs: seq<Job>, rec: Record, funcName: string, uuid: string, other: Record)
    requires forall i :: 0 <= i < |jobs| ==> jobs[i].uuid != uuid
    ensures forall j :: j in JobsOf(jobs, other) ==> j in JobsOf(Enqueue(jobs, rec, funcName, uuid), other)
  {
  }

  /** `reinstall`: enqueue `deploy`, whose own first step is the purge. */
  function Reinstall(jobs: seq<Job>, rec: Record, uuid: string): (r: seq<Job>)
    ensures |r| == |jobs| + 1
    ensures r[|jobs|].funcName == "deploy" && r[|jobs|].description == "deploy - " + rec.name
    ensures ListedFor(r[|jobs|], rec)
    ensures r[|jobs|] == Job(uuid, rec.model, rec.id, "deploy", "deploy - " + rec.name, Some(rec.id), None)
    ensures forall i :: 0 <= i < |jobs| && jobs[i].uuid == uuid ==> r[i] == jobs[i].(resId := Some(rec.id))
    ensures forall i :: 0 <= i < |jobs| && jobs[i].uuid != uuid ==> r[i] == jobs[i]
  {
    Enqueue(jobs, rec, "deploy", uuid)
  }
}

=== FILE: executor.dfy ===
/**
 Remote command execution over a pooled session: the command line that is
 sent, what `execute` returns and logs, the two-hop relay of `send`, and the
 outcome mapping of `exist`. The remote side is an input: `remote` says what
 a command prints on stdout and stderr, or that the session could not run it.
 */
module Executor {
  import opened Wrappers
  import opened Text
  import opened Records
  import opened SessionPool

  /** The tokens `execute` inserts before the caller's: docker exec first, then the cd. */
  function Prefix(nested: bool, name: string, path: Option<string>): seq<string> {
    DockerGroup(nested, name) + CdGroup(path)
  }

  /**
   The command line sent: the prefix and the caller's tokens joined by single
   spaces. It opens with `docker exec NAME` for a nested record, else with
   `cd PATH;` when a path is given, and is the plain join of the tokens when
   neither applies.
   */
  function CommandLine(nested: bool, name: string, path: Option<string>, tokens: seq<string>): (l: string)
    ensures nested ==> "docker exec " + name <= l
    ensures !nested && Truthy(path) ==> "cd " + path.value + ";" <= l
    ensures !nested && !Truthy(path) ==> l == Join(tokens, ' ')
  {
    var all := Prefix(nested, name, path) + tokens;
    assert nested ==> all[0] == "docker exec " + name;
    assert !nested && Truthy(path) ==> all[0] == "cd " + path.value + ";";
    assert !nested && !Truthy(path) ==> all == tokens;
    Join(all, ' ')
  }

  /** The sent command read back as space-separated words. */
  function Words(nested: bool, name: string, path: Option<string>, tokens: seq<string>): seq<string> {
    DockerSplit(nested, name) + CdSplit(path) + tokens
  }

  /** `docker exec NAME` is the join of its three words. */
  lemma DockerWords(name: string)
    ensures Join(["docker", "exec", name], ' ') == "docker exec " + name
  {
    var dw := ["docker", "exec", name];
    assert dw[1..] == ["exec", name];
    assert dw[1..][1..] == [name];
    assert Join(["exec", name], ' ') == "exec" + [' '] + name;
    assert Join(dw, ' ') == "docker" + [' '] + ("exec" + [' '] + name);
  }

  /** `cd PATH;` is the join of its two words. */
  lemma CdWords(p: string)
    ensures Join(["cd", p + ";"], ' ') == "cd " + p + ";"
  {
  }

  /** The docker prefix and its words, both present only for a nested record. */
  function DockerGroup(nested: bool, name: string): seq<string> {
    if nested then ["docker exec " + name] else []
  }

  /** The same prefix as separate words. */
  function DockerSplit(nested: bool, name: string): seq<string> {
    if nested then ["docker", "exec", name] else []
  }

  /** The cd prefix and its words, both present only when a path is given. */
  function CdGroup(path: Option<string>): seq<string> {
    if Truthy(path) then ["cd " + path.value + ";"] else []
  }

  /** The same prefix as separate words. */
  function CdSplit(path: Option<string>): seq<string> {
    if Truthy(path) then ["cd", path.value + ";"] else []
  }

  /** The docker prefix as one token or as its words joins to the same line. */
  lemma ExpandDocker(nested: bool, name: string, rest: seq<string>)
    ensures Join(DockerGroup(nested, name) + rest, ' ') == Join(DockerSplit(nested, name) + rest, ' ')
  {
    if nested {
      DockerWords(name);
      JoinFlatten([], ["docker", "exec", name], rest, ' ');
      assert [] + [Join(["docker", "exec", name], ' ')] + rest == DockerGroup(nested, name) + rest;
      assert [] + ["docker", "exec", name] + rest == DockerSplit(nested, name) + rest;
    }
  }

  /** The cd prefix as one token or as its words joins to the same line. */
  lemma ExpandCd(pre: seq<string>, path: Option<string>, tokens: seq<string>)
    ensures Join(pre + CdGroup(path) + tokens, ' ') == Join(pre + CdSplit(path) + tokens, ' ')
  {
    if Truthy(path) {
      CdWords(path.value);
      JoinFlatten(pre, CdSplit(path), tokens, ' ');
    }
  }

  /** The words of the sent command contain no space when its parts contain none. */
  lemma WordsAvoidSpace(nested: bool, name: string, path: Option<string>, tokens: seq<string>)
    requires ' ' !in name && (Truthy(path) ==> ' ' !in path.value) && Avoids(tokens, ' ')
    ensures Avoids(Words(nested, name, path, tokens), ' ')
  {
  }

  /**
   Shape of the sent command: when no name, path or token contains a space,
   splitting it at spaces gives `docker exec NAME` (only if nested), `cd PATH;`
   (only if a path is given), then the caller's tokens, in that order.
   */
  lemma CommandShape(nested: bool, name: string, path: Option<string>, tokens: seq<string>)
    requires ' ' !in name && (Truthy(path) ==> ' ' !in path.value) && Avoids(tokens, ' ')
    requires nested || Truthy(path) || |tokens| > 0
    ensures Split(CommandLine(nested, name, path, tokens), ' ') == Words(nested, name, path, tokens)
  {
    var dg, ds := DockerGroup(nested, name), DockerSplit(nested, name);
    var cg, cs := CdGroup(path), CdSplit(path);
    assert Prefix(nested, name, path) + tokens == dg + (cg + tokens);
    ExpandDocker(nested, name, cg + tokens);
    assert ds + (cg + tokens) == ds + cg + tokens;
    ExpandCd(ds, path, tokens);
    assert ds + cs + tokens == Words(nested, name, path, tokens);
    WordsAvoidSpace(nested, name, path, tokens);
    SplitJoin(Words(nested, name, path, tokens), ' ');
  }

  /** Two-element join. */
  lemma JoinPair(x: string, y: string, sep: char)
    ensures Join([x, y], sep) == x + [sep] + y
  {
  }

  /** The text before the `;`: docker exec, the name, cd and the path. */
  lemma DockerCdAvoidsSemicolon(name: string, path: string)
    requires ';' !in name && ';' !in path
    ensures ';' !in "docker exec " + name + " cd " + path
  {
  }

  /**
   For a nested record with a path, the `;` after `cd PATH` ends the command
   that `docker exec` runs: the remote shell gets two commands, and the second,
   holding the caller's tokens, is not prefixed with `docker exec` and so runs
   on the host rather than inside the container.
   */
  lemma NestedPathSplitsAtSemicolon(name: string, path: string, tokens: seq<string>)
    requires path != "" && |tokens| > 0
    requires ';' !in name && ';' !in path && Avoids(tokens, ';')
    ensures Split(CommandLine(true, name, Some(path), tokens), ';') ==
            ["docker exec " + name + " cd " + path, " " + Join(tokens, ' ')]
  {
    var a := "docker exec " + name + " cd " + path;
    var b := " " + Join(tokens, ' ');
    NestedPathLine(name, path, tokens);
    DockerCdAvoidsSemicolon(name, path);
    JoinAvoids(tokens, ' ', ';');
    assert ';' !in b;
    SplitAfter(a, b, ';');
    SplitNoSep(b, ';');
  }

  /** The nested command with a path, written around its `;`. */
  lemma NestedPathLine(name: string, path: string, tokens: seq<string>)
    requires path != "" && |tokens| > 0
    ensures CommandLine(true, name, Some(path), tokens) ==
            ("docker exec " + name + " cd " + path) + [';'] + (" " + Join(tokens, ' '))
  {
    var first := "docker exec " + name;
    var second := "cd " + path + ";";
    var j := Join(tokens, ' ');
    assert Prefix(true, name, Some(path)) == [first, second];
    JoinAppend([first, second], tokens, ' ');
    JoinPair(first, second, ' ');
    Regroup(first, path, j);
  }

  /** The spaces around `cd PATH;`, regrouped around its `;`. */
  lemma Regroup(first: string, path: string, j: string)
    ensures first + [' '] + ("cd " + path + ";") + [' '] + j == (first + " cd " + path) + [';'] + (" " + j)
  {
  }

  /** What the remote side printed for a command. */
  datatype Output = Output(stdout: string, stderr: string)

  /** What `execute` gives: stdout, the command sent, the cache afterwards and the lines logged. */
  datatype Executed = Executed(stdout: string, sent: string, cache: Cache, logged: seq<string>)

  /**
   The lines `execute` logs after connecting, in order: the path (when given),
   the host, the command sent, one line per stdin argument, stdout, stderr.
   */
  function ExecLog(host: Host, path: Option<string>, sent: string, stdinArgs: seq<string>, out: Output): (r: seq<string>)
    ensures var k := if Truthy(path) then 1 else 0;
            && |r| == k + 4 + |stdinArgs|
            && (Truthy(path) ==> r[0] == "path : " + path.value)
            && r[k] == "host : " + host.name && r[k + 1] == "command : " + sent
            && (forall i :: 0 <= i < |stdinArgs| ==> r[k + 2 + i] == "command : " + stdinArgs[i])
            && r[|r| - 2] == "stdout : " + out.stdout && r[|r| - 1] == "stderr : " + out.stderr
  {
    (if Truthy(path) then ["path : " + path.value] else [])
      + ["host : " + host.name, "command : " + sent]
      + seq(|stdinArgs|, i requires 0 <= i < |stdinArgs| => "command : " + stdinArgs[i])
      + ["stdout : " + out.stdout, "stderr : " + out.stderr]
  }

  /** What the session answers to a command: its output, or the error `exec_command` raised. */
  datatype Reply = Replied(out: Output) | Dropped(reason: string)

  /** How `execute` fails: acquiring the session, or running the command on it. */
  datatype ExecError = AcquireFailed(cause: ConnectError) | CommandFailed(reason: string)

  /**
   `execute(cmd, stdin_arg, path)`: connect with no port or username, send
   the built command, return stdout. A non-zero exit or stderr output is not an
   error; acquiring the session can fail, and so can running the command on a
   session whose transport is no longer active.
   */
  function Execute(rec: Record, cmd: seq<string>, stdinArgs: seq<string>, path: Option<string>,
                   cache: Cache, config: SshConfig, dial: DialRequest -> DialOutcome,
                   remote: (Session, string, seq<string>) -> Reply): (r: Result<Executed, ExecError>)
    ensures var c := Connect(rec, None, None, cache, config, dial);
            c.Failure? ==> r == Failure(AcquireFailed(c.error))
    ensures var c := Connect(rec, None, None, cache, config, dial);
            c.Success? ==>
              var sent := CommandLine(IsNested(rec, c.value.host), rec.name, path, cmd);
              && (r.Success? <==> remote(c.value.session, sent, stdinArgs).Replied?)
              && (remote(c.value.session, sent, stdinArgs).Dropped? ==>
                    r == Failure(CommandFailed(remote(c.value.session, sent, stdinArgs).reason)))
    ensures r.Success? ==>
              var a := Connect(rec, None, None, cache, config, dial).value;
              && r.value.sent == CommandLine(IsNested(rec, a.host), rec.name, path, cmd)
              && remote(a.session, r.value.sent, stdinArgs).Replied?
              && r.value.stdout == remote(a.session, r.value.sent, stdinArgs).out.stdout
              && r.value.cache == a.cache
              && a.logged <= r.value.logged
              && r.value.logged == a.logged + ExecLog(a.host, path, r.value.sent, stdinArgs,
                                                      remote(a.session, r.value.sent, stdinArgs).out)
              && |r.value.logged| > 0
              && r.value.logged[|r.value.logged| - 1] == "stderr : " + remote(a.session, r.value.sent, stdinArgs).out.stderr
  {
    match Connect(rec, None, None, cache, config, dial)
    case Failure(e) => Failure(AcquireFailed(e))
    case Success(a) =>
      var sent := CommandLine(IsNested(rec, a.host), rec.name, path, cmd);
      match remote(a.session, sent, stdinArgs)
      case Dropped(reason) => Failure(CommandFailed(reason))
      case Replied(out) =>
        Success(Executed(out.stdout, sent, a.cache, a.logged + ExecLog(a.host, path, sent, stdinArgs, out)))
  }

  /** The result depends on stdout alone: two remotes that agree on failing and on stdout give the same value, whatever their stderr. */
  lemma ExecuteIgnoresStderr(rec: Record, cmd: seq<string>, stdinArgs: seq<string>, path: Option<string>,
                             cache: Cache, config: SshConfig, dial: DialRequest -> DialOutcome,
                             remote: (Session, string, seq<string>) -> Reply,
                             remote': (Session, string, seq<string>) -> Reply)
    requires forall s, c, i :: remote(s, c, i).Replied? == remote'(s, c, i).Replied?
    requires forall s, c, i :: remote(s, c, i).Replied? ==> remote(s, c, i).out.stdout == remote'(s, c, i).out.stdout
    ensures var r := Execute(rec, cmd, stdinArgs, path, cache, config, dial, remote);
            var r' := Execute(rec, cmd, stdinArgs, path, cache, config, dial, remote');
            r.Success? == r'.Success? &&
            (r.Success? ==> r.value.stdout == r'.value.stdout && r.value.sent == r'.value.sent)
  {
  }

  /**
   A live cached session does not make `execute` succeed: when the session
   cannot run the command, the error is the session's, and nothing is returned.
   */
  lemma CachedSessionCanStillFail(rec: Record, cmd: seq<string>, stdinArgs: seq<string>, path: Option<string>,
                                  cache: Cache, config: SshConfig, dial: DialRequest -> DialOutcome,
                                  remote: (Session, string, seq<string>) -> Reply)
    requires HostOf(rec).Some?
    requires LiveHit(cache, CacheKey(HostOf(rec).value.name, None, None))
    requires forall s, c, i :: remote(s, c, i).Dropped?
    ensures Execute(rec, cmd, stdinArgs, path, cache, config, dial, remote).Failure?
    ensures Execute(rec, cmd, stdinArgs, path, cache, config, dial, remote).error.CommandFailed?
  {
  }

  /** One step of `send`: a command run on the host through its own `execute`, or an sftp put. */
  datatype Transfer = RunOnHost(host: Host, tokens: seq<string>) | Put(source: string, destination: string)

  /** `'/tmp/clouder/' + str(time.time())`, with the clock reading as text. */
  function TmpDir(clock: string): string {
    "/tmp/clouder/" + clock
  }

  /**
   The steps of `send(source, destination)` once `connect` gave `host`. A
   record that is its own host gets the file put directly; a nested record
   gets it through a temporary directory on the host, piped into the container
   and then removed.
   */
  function SendPlan(rec: Record, host: Host, source: string, destination: string, clock: string): (plan: seq<Transfer>)
    ensures !IsNested(rec, host) ==> plan == [Put(source, destination)]
    ensures IsNested(rec, host) ==>
              && |plan| == 4
              && (forall i :: 0 <= i < 4 && i != 1 ==> plan[i].RunOnHost? && plan[i].host == host)
              && plan[1].Put? && plan[1].source == source
              && plan[0].tokens == ["mkdir", "-p", TmpDir(clock)]
              && plan[1].destination == TmpDir(clock) + "/file"
              && plan[2].tokens == ["cat", plan[1].destination, "|", "docker", "exec", "-i", rec.name,
                                    "sh", "-c", "'cat > " + destination + "'"]
              && plan[3].tokens == ["rm", "-rf", TmpDir(clock)]
  {
    if IsNested(rec, host) then
      var tmp := TmpDir(clock);
      var staged := tmp + "/file";
      [ RunOnHost(host, ["mkdir", "-p", tmp]),
        Put(source, staged),
        RunOnHost(host, ["cat", staged, "|", "docker", "exec", "-i", rec.name, "sh", "-c", "'cat > " + destination + "'"]),
        RunOnHost(host, ["rm", "-rf", tmp]) ]
    else
      [Put(source, destination)]
  }

  /** The host's own `execute` sends its tokens unwrapped, since a host record is not nested. */
  lemma HostCommandsUnwrapped(server: Record, tokens: seq<string>)
    requires server.model != ContainerModel
    ensures HostOf(server) == Some(SelfHost(server)) && !IsNested(server, SelfHost(server))
    ensures CommandLine(IsNested(server, SelfHost(server)), server.name, None, tokens) == Join(tokens, ' ')
  {
    assert Prefix(false, server.name, None) + tokens == tokens;
  }

  /** What `sftp.stat(path)` does: succeed, raise IOError with an errno, or raise something else. */
  datatype StatResult = Found | IOError(errno: int) | OtherError(reason: string)

  /** `errno.ENOENT` on Linux. */
  const ENOENT: int := 2

  /** `exist(ssh, path)`: "not found" is False, any other failure propagates. */
  function Exist(stat: StatResult): (r: Result<bool, StatResult>)
    ensures r == Success(true) <==> stat.Found?
    ensures r == Success(false) <==> stat == IOError(ENOENT)
    ensures r.Failure? <==> !stat.Found? && stat != IOError(ENOENT)
    ensures r.Failure? ==> r.error == stat
  {
    match stat
    case Found => Success(true)
    case IOError(e) => if e == ENOENT then Success(false) else Failure(stat)
    case OtherError(_) => Failure(stat)
  }
}

=== FILE: lifecycle.dfy ===
/**
 The lifecycle controller of clouder.model: `create` deploys and rolls back
 on failure, `unlink` purges best-effort and clears the record's logs, and the
 default `deploy`, `purge`, `deploy_links` and `purge_links` hooks fix the
 order in which the record and its links are visited. What the hooks of other
 code do is an input (`Hooks`); what this core does is recorded as an event
 trace.
 */
module Lifecycle {
  import opened Wrappers
  import opened Text
  import opened Records
  import opened AuditLog

  /** The errors a lifecycle operation can raise. */
  datatype Error = MissingSysadminEmail | HookError(reason: string)

  /** How a hook call ends: it returns, or it raises. */
  datatype Outcome = Ok | Raised(error: Error)

  /**
   The hooks outside this core: a link's `deploy_` and `purge_`, and the work
   an inheriting model adds to the base `deploy` (`provision`) and to the base
   `purge` (`dismantle`), each run once the base hook has returned.
   */
  datatype Hooks = Hooks(deployLink: Link -> Outcome, purgeLink: Link -> Outcome,
                         provision: Record -> Outcome, dismantle: Record -> Outcome)

  /** The record's own lifecycle hooks. */
  datatype Hook = DeployHook | PurgeHook | DeployLinksHook | PurgeLinksHook

  /** What happened, in order. */
  datatype Event =
    | Invoked(rec: RecordRef, hook: Hook)        // a hook of the record was entered
    | LinkInvoked(link: Link, deploying: bool)   // `deploy_` (true) or `purge_` (false) called on a link
    | Provisioned(rec: RecordRef)                // the inheriting model's deploy work was called
    | Dismantled(rec: RecordRef)                 // the inheriting model's purge work was called
    | LogOpened(rec: RecordRef, action: string)  // `create_log(action)`
    | LogEnded(rec: RecordRef)                   // `end_log()`
    | Logged(line: string)                       // a line sent to the process log by `log`
    | Deleted(rec: RecordRef)                    // the store-level delete

  /** A clouder.log row addressed to (model, res_id). */
  datatype LogRow = LogRow(id: nat, model: string, resId: nat)

  /**
   Everything the lifecycle touches: the record store, the context's
   `logs[model][id]` entries, the clouder.log rows, the queue jobs and the
   context's `job_uuid` for `log`, the clock reading used for log lines, and
   the event trace.
   */
  datatype State = State(store: map<RecordRef, Record>, logs: map<string, map<nat, nat>>,
                         logRows: seq<LogRow>, jobs: seq<Job>, jobUuid: Option<string>,
                         clock: string, events: seq<Event>)

  /** A state after an operation, and how the operation ended. */
  datatype Step = Step(st: State, out: Outcome)

  /** What a hook call does in this core: the events it appends, and how it ends. */
  datatype Run = Run(events: seq<Event>, out: Outcome)

  /** The links a cascade called, in order, and how it ended. */
  datatype Cascade = Cascade(visited: seq<Link>, out: Outcome)

  /**
   `for link in links: hook(link)`: links are called in collection order and
   the first raise stops the loop and propagates.
   */
  function RunLinks(links: seq<Link>, hook: Link -> Outcome): (c: Cascade)
    ensures c.visited <= links
    ensures c.out.Ok? <==> (forall i :: 0 <= i < |links| ==> hook(links[i]).Ok?)
    ensures c.out.Ok? ==> c.visited == links
    ensures c.out.Raised? ==>
              && |c.visited| > 0
              && c.out == hook(c.visited[|c.visited| - 1])
              && (forall i :: 0 <= i < |c.visited| - 1 ==> hook(c.visited[i]).Ok?)
    decreases |links|
  {
    if |links| == 0 then Cascade([], Ok)
    else
      var o := hook(links[0]);
      if o.Raised? then Cascade([links[0]], o)
      else
        var rest := RunLinks(links[1..], hook);
        Cascade([links[0]] + rest.visited, rest.out)
  }

  /** One event per link called. */
  function LinkEvents(visited: seq<Link>, deploying: bool): (es: seq<Event>)
    ensures |es| == |visited|
    ensures forall i :: 0 <= i < |es| ==> es[i] == LinkInvoked(visited[i], deploying)
  {
    seq(|visited|, i requires 0 <= i < |visited| => LinkInvoked(visited[i], deploying))
  }

  /** Every link hook called and succeeded. */
  predicate AllLinksOk(rec: Record, hook: Link -> Outcome) {
    rec.links.Some? ==> forall i :: 0 <= i < |rec.links.value| ==> hook(rec.links.value[i]).Ok?
  }

  /** `deploy_links`: force deployment of every link, in collection order; a no-op without `link_ids`. */
  function DeployLinks(rec: Record, hooks: Hooks): (r: Run)
    ensures |r.events| >= 1 && r.events[0] == Invoked(rec.Ref(), DeployLinksHook)
    ensures rec.links.None? ==> r == Run([Invoked(rec.Ref(), DeployLinksHook)], Ok)
    ensures r.out.Ok? <==> AllLinksOk(rec, hooks.deployLink)
    ensures r.out.Ok? && rec.links.Some? ==>
              r.events == [Invoked(rec.Ref(), DeployLinksHook)] + LinkEvents(rec.links.value, true)
    ensures rec.links.Some? ==>
              var c := RunLinks(rec.links.value, hooks.deployLink);
              c.visited <= rec.links.value && r.events[1..] == LinkEvents(c.visited, true)
  {
    var head := [Invoked(rec.Ref(), DeployLinksHook)];
    match rec.links
    case None => Run(head, Ok)
    case Some(links) =>
      var c := RunLinks(links, hooks.deployLink);
      Run(head + LinkEvents(c.visited, true), c.out)
  }

  /** `purge_links`: force purge of every link, in collection order (not reversed); a no-op without `link_ids`. */
  function PurgeLinks(rec: Record, hooks: Hooks): (r: Run)
    ensures |r.events| >= 1 && r.events[0] == Invoked(rec.Ref(), PurgeLinksHook)
    ensures rec.links.None? ==> r == Run([Invoked(rec.Ref(), PurgeLinksHook)], Ok)
    ensures r.out.Ok? <==> AllLinksOk(rec, hooks.purgeLink)
    ensures r.out.Ok? && rec.links.Some? ==>
              r.events == [Invoked(rec.Ref(), PurgeLinksHook)] + LinkEvents(rec.links.value, false)
    ensures rec.links.Some? ==>
              var c := RunLinks(rec.links.value, hooks.purgeLink);
              c.visited <= rec.links.value && r.events[1..] == LinkEvents(c.visited, false)
    ensures forall i :: 1 <= i < |r.events| ==> r.events[i].LinkInvoked? && !r.events[i].deploying
  {
    var head := [Invoked(rec.Ref(), PurgeLinksHook)];
    match rec.links
    case None => Run(head, Ok)
    case Some(links) =>
      var c := RunLinks(links, hooks.purgeLink);
      Run(head + LinkEvents(c.visited, false), c.out)
  }

  /** The whole purge returns: every link's `purge_`, then the inheriting model's purge work. */
  predicate PurgeOk(rec: Record, hooks: Hooks) {
    AllLinksOk(rec, hooks.purgeLink) && hooks.dismantle(rec).Ok?
  }

  /**
   `purge`: the base hook calls `purge_links`; if that returns, the inheriting
   model's purge work runs. A raise from either propagates. No link is deployed.
   */
  function Purge(rec: Record, hooks: Hooks): (r: Run)
    ensures r.events == [Invoked(rec.Ref(), PurgeHook)] + PurgeLinks(rec, hooks).events
                        + (if AllLinksOk(rec, hooks.purgeLink) then [Dismantled(rec.Ref())] else [])
    ensures forall i :: 0 <= i < |r.events| ==>
              !r.events[i].Provisioned? && (r.events[i].LinkInvoked? ==> !r.events[i].deploying)
    ensures r.out.Ok? <==> PurgeOk(rec, hooks)
    ensures !AllLinksOk(rec, hooks.purgeLink) ==> r.out == PurgeLinks(rec, hooks).out
    ensures AllLinksOk(rec, hooks.purgeLink) ==> r.out == hooks.dismantle(rec)
  {
    var p := PurgeLinks(rec, hooks);
    var head := [Invoked(rec.Ref(), PurgeHook)] + p.events;
    assert forall i :: 0 <= i < |head| ==>
             !head[i].Provisioned? && !head[i].Dismantled? && (head[i].LinkInvoked? ==> !head[i].deploying) by {
      forall i | 0 <= i < |head|
        ensures !head[i].Provisioned? && !head[i].Dismantled? && (head[i].LinkInvoked? ==> !head[i].deploying)
      {
        if i > 0 {
          assert head[i] == p.events[i - 1];
        }
      }
    }
    if p.out.Raised? then Run(head, p.out)
    else Run(head + [Dismantled(rec.Ref())], hooks.dismantle(rec))
  }

  /**
   The default `deploy`: purge first; if the whole purge returns, the
   inheriting model's provisioning runs. A raise from either propagates.
   No link is deployed.
   */
  function Deploy(rec: Record, hooks: Hooks): (r: Run)
    ensures r.events == [Invoked(rec.Ref(), DeployHook)] + Purge(rec, hooks).events
                        + (if PurgeOk(rec, hooks) then [Provisioned(rec.Ref())] else [])
    ensures |r.events| >= 3
    ensures r.events[..3] ==
            [Invoked(rec.Ref(), DeployHook), Invoked(rec.Ref(), PurgeHook), Invoked(rec.Ref(), PurgeLinksHook)]
    ensures Provisioned(rec.Ref()) in r.events <==> PurgeOk(rec, hooks)
    ensures forall i :: 0 <= i < |r.events| && r.events[i].LinkInvoked? ==> !r.events[i].deploying
    ensures r.out.Ok? <==> PurgeOk(rec, hooks) && hooks.provision(rec).Ok?
    ensures !PurgeOk(rec, hooks) ==> r.out == Purge(rec, hooks).out
    ensures PurgeOk(rec, hooks) ==> r.out == hooks.provision(rec)
  {
    var p := Purge(rec, hooks);
    var head := [Invoked(rec.Ref(), DeployHook)] + p.events;
    DeployHead(rec, hooks);
    if p.out.Raised? then Run(head, p.out)
    else Run(head + [Provisioned(rec.Ref())], hooks.provision(rec))
  }

  /** The part of `deploy` before provisioning: the hook entered, then the whole purge. */
  lemma DeployHead(rec: Record, hooks: Hooks)
    ensures var head := [Invoked(rec.Ref(), DeployHook)] + Purge(rec, hooks).events;
            && |head| >= 3
            && head[..3] == [Invoked(rec.Ref(), DeployHook), Invoked(rec.Ref(), PurgeHook), Invoked(rec.Ref(), PurgeLinksHook)]
            && (forall i :: 0 <= i < |head| ==>
                  head[i] != Provisioned(rec.Ref()) && (head[i].LinkInvoked? ==> !head[i].deploying))
  {
    var ref := rec.Ref();
    var pl := PurgeLinks(rec, hooks).events;
    var p := Purge(rec, hooks).events;
    assert p[..2] == [Invoked(ref, PurgeHook), pl[0]];
    Prepend(Invoked(ref, DeployHook), p, ref);
  }

  /** Entering a hook in front of a trace that neither provisions nor deploys a link. */
  lemma Prepend(e: Event, es: seq<Event>, ref: RecordRef)
    requires e != Provisioned(ref) && !e.LinkInvoked? && |es| >= 2
    requires forall i :: 0 <= i < |es| ==> !es[i].Provisioned? && (es[i].LinkInvoked? ==> !es[i].deploying)
    ensures |[e] + es| >= 3 && ([e] + es)[..3] == [e] + es[..2]
    ensures forall i :: 0 <= i < |[e] + es| ==>
              ([e] + es)[i] != Provisioned(ref) && (([e] + es)[i].LinkInvoked? ==> !([e] + es)[i].deploying)
  {
    var head := [e] + es;
    forall i | 0 <= i < |head|
      ensures head[i] != Provisioned(ref) && (head[i].LinkInvoked? ==> !head[i].deploying)
    {
      if i > 0 {
        assert head[i] == es[i - 1];
      }
    }
  }

  /**
   Purge before provisioning: when the provisioning runs, the whole purge has
   already happened, every link purged in collection order and the purge work
   done, and the provisioning is the last thing `deploy` does.
   */
  lemma {:induction false} PurgeBeforeProvision(rec: Record, hooks: Hooks)
    requires Provisioned(rec.Ref()) in Deploy(rec, hooks).events
    ensures Deploy(rec, hooks).events ==
            [Invoked(rec.Ref(), DeployHook), Invoked(rec.Ref(), PurgeHook), Invoked(rec.Ref(), PurgeLinksHook)]
            + (if rec.links.Some? then LinkEvents(rec.links.value, false) else [])
            + [Dismantled(rec.Ref()), Provisioned(rec.Ref())]
  {
    PurgedTrace(rec, hooks);
  }

  /** The trace of a `deploy` whose purge returned. */
  lemma PurgedTrace(rec: Record, hooks: Hooks)
    requires PurgeOk(rec, hooks)
    ensures Deploy(rec, hooks).events ==
            [Invoked(rec.Ref(), DeployHook), Invoked(rec.Ref(), PurgeHook), Invoked(rec.Ref(), PurgeLinksHook)]
            + (if rec.links.Some? then LinkEvents(rec.links.value, false) else [])
            + [Dismantled(rec.Ref()), Provisioned(rec.Ref())]
  {
    var ref := rec.Ref();
    var links := if rec.links.Some? then LinkEvents(rec.links.value, false) else [];
    var pl := PurgeLinks(rec, hooks).events;
    var pu := Purge(rec, hooks).events;
    assert pl == [Invoked(ref, PurgeLinksHook)] + links;
    assert pu == [Invoked(ref, PurgeHook)] + pl + [Dismantled(ref)];
    assert Deploy(rec, hooks).events == [Invoked(ref, DeployHook)] + pu + [Provisioned(ref)];
    Regroup(Invoked(ref, DeployHook), Invoked(ref, PurgeHook), Invoked(ref, PurgeLinksHook), links,
            Dismantled(ref), Provisioned(ref));
  }

  /** Nested hook traces, written flat. */
  lemma Regroup(a: Event, b: Event, c: Event, mid: seq<Event>, d: Event, e: Event)
    ensures [a] + ([b] + ([c] + mid) + [d]) + [e] == [a, b, c] + mid + [d, e]
  {
  }

  /** `log(message)` inside the lifecycle: the process-log line and the job traces. */
  function LogLine(st: State, message: string): (st': State)
    ensures st'.store == st.store && st'.logs == st.logs && st'.logRows == st.logRows
    ensures st'.jobUuid == st.jobUuid && st'.clock == st.clock
    ensures st'.events == st.events + [Logged(FilterPrintable(message))]
  {
    var l := Log(st.jobs, st.jobUuid, message, st.clock);
    st.(jobs := l.jobs, events := st.events + [Logged(l.diagnostic)])
  }

  /** The rule line around the failure banner. */
  const Rule: string := "==================="

  /** The failure banner. */
  const FailBanner: string := "FAIL! Reverting..."

  /** The banner lines pass the printable filter unchanged, so they are logged as written. */
  lemma BannersPrintable()
    ensures FilterPrintable(Rule) == Rule && FilterPrintable(FailBanner) == FailBanner
  {
    assert forall i :: 0 <= i < |Rule| ==> IsPrintable(Rule[i]);
    assert forall i :: 0 <= i < |FailBanner| ==> IsPrintable(FailBanner[i]);
  }

  /** Neither a context log entry nor a clouder.log row is left for the record. */
  predicate NoLogTrace(st: State, rec: Record) {
    && !(rec.model in st.logs && rec.id in st.logs[rec.model])
    && forall i :: 0 <= i < |st.logRows| ==> !(st.logRows[i].model == rec.model && st.logRows[i].resId == rec.id)
  }

  /** The clouder.log rows not addressed to (model, resId), in order. */
  function RemoveRows(rows: seq<LogRow>, model: string, resId: nat): (r: seq<LogRow>)
    ensures forall x :: x in r <==> x in rows && !(x.model == model && x.resId == resId)
    ensures forall i :: 0 <= i < |r| ==> !(r[i].model == model && r[i].resId == resId)
    ensures |r| <= |rows|
    decreases |rows|
  {
    if |rows| == 0 then []
    else
      var rest := RemoveRows(rows[1..], model, resId);
      if rows[0].model == model && rows[0].resId == resId then rest else [rows[0]] + rest
  }

  /** `del context['logs'][model][id]` when the entry exists; nothing otherwise. */
  function DropLogContext(logs: map<string, map<nat, nat>>, model: string, id: nat): (r: map<string, map<nat, nat>>)
    ensures !(model in r && id in r[model])
    ensures r.Keys == logs.Keys
    ensures forall m :: m in logs && m != model ==> r[m] == logs[m]
    ensures model in logs ==> r[model] == logs[model] - {id}
  {
    if model in logs && id in logs[model] then logs[model := logs[model] - {id}] else logs
  }

  /**
   `unlink`: purge with any raise swallowed, delete the record, drop its
   context log entry and its clouder.log rows. The store-level deletes are
   assumed to succeed.
   */
  function Unlink(rec: Record, hooks: Hooks, st: State): (st': State)
    ensures st'.store == st.store - {rec.Ref()}
    ensures NoLogTrace(st', rec)
    ensures forall x :: x in st.logRows && !(x.model == rec.model && x.resId == rec.id) ==> x in st'.logRows
    ensures forall x :: x in st'.logRows ==> x in st.logRows
    ensures st'.logs.Keys == st.logs.Keys
    ensures forall m :: m in st.logs && m != rec.model ==> st'.logs[m] == st.logs[m]
    ensures rec.model in st.logs ==> st'.logs[rec.model] == st.logs[rec.model] - {rec.id}
    ensures st'.jobs == st.jobs && st'.jobUuid == st.jobUuid
    ensures st'.events == st.events + Purge(rec, hooks).events + [Deleted(rec.Ref())]
  {
    var p := Purge(rec, hooks);
    var ref := rec.Ref();
    st.(store := st.store - {ref},
        logs := DropLogContext(st.logs, rec.model, rec.id),
        logRows := RemoveRows(st.logRows, rec.model, rec.id),
        events := st.events + p.events + [Deleted(ref)])
  }

  /** Best effort: how `purge` ends makes no difference to what `unlink` deletes. */
  lemma UnlinkIgnoresPurgeOutcome(rec: Record, hooks: Hooks, hooks': Hooks, st: State)
    ensures var a := Unlink(rec, hooks, st);
            var b := Unlink(rec, hooks', st);
            a.store == b.store && a.logs == b.logs && a.logRows == b.logRows && a.jobs == b.jobs
  {
  }

  /** Adding a fresh key and removing it again gives back the map. */
  lemma StoreRestored(store: map<RecordRef, Record>, ref: RecordRef, rec: Record)
    requires ref !in store
    ensures store[ref := rec] - {ref} == store
  {
  }

  /** The state `create` deploys from: the record stored and its create log opened. */
  function Opened(rec: Record, st: State): (st': State)
    ensures st'.store == st.store[rec.Ref() := rec] && rec.Ref() in st'.store
    ensures st'.events == st.events + [LogOpened(rec.Ref(), "create")]
    ensures st'.logs == st.logs && st'.logRows == st.logRows && st'.jobs == st.jobs
    ensures st'.jobUuid == st.jobUuid && st'.clock == st.clock
  {
    st.(store := st.store[rec.Ref() := rec], events := st.events + [LogOpened(rec.Ref(), "create")])
  }

  /** The three banner lines `create` logs on failure: `rule`, `fail`, `rule`. */
  function LogBanner(st: State, rule: string, fail: string): (st': State)
    ensures st'.store == st.store && st'.logs == st.logs && st'.logRows == st.logRows
    ensures st'.events == st.events + [Logged(FilterPrintable(rule)), Logged(FilterPrintable(fail)), Logged(FilterPrintable(rule))]
  {
    var s1 := LogLine(st, rule);
    var s2 := LogLine(s1, fail);
    var s3 := LogLine(s2, rule);
    Append3(st.events, Logged(FilterPrintable(rule)), Logged(FilterPrintable(fail)), Logged(FilterPrintable(rule)));
    s3
  }

  /** Three events appended one at a time, written as one block. */
  lemma Append3(es: seq<Event>, a: Event, b: Event, c: Event)
    ensures es + [a] + [b] + [c] == es + [a, b, c]
  {
  }

  /** The failure path of `create`: the banner logged, then `unlink`. */
  function Revert(rec: Record, hooks: Hooks, st: State, rule: string, fail: string): (st': State)
    ensures st'.store == st.store - {rec.Ref()}
    ensures NoLogTrace(st', rec)
    ensures st'.events == st.events + [Logged(FilterPrintable(rule)), Logged(FilterPrintable(fail)), Logged(FilterPrintable(rule))]
                          + Purge(rec, hooks).events + [Deleted(rec.Ref())]
  {
    Unlink(rec, hooks, LogBanner(st, rule, fail))
  }

  /** `create` after a deploy that raised: log the banner, unlink, re-raise the same error. */
  function RollBack(rec: Record, hooks: Hooks, st: State): (s: Step)
    requires rec.Ref() !in st.store && Deploy(rec, hooks).out.Raised?
    ensures s.out == Deploy(rec, hooks).out
    ensures s.st.store == st.store && NoLogTrace(s.st, rec)
    ensures s.st.events == st.events + [LogOpened(rec.Ref(), "create")] + Deploy(rec, hooks).events
                           + [Logged(Rule), Logged(FailBanner), Logged(Rule)]
                           + Purge(rec, hooks).events + [Deleted(rec.Ref())]
    ensures st.events + [LogOpened(rec.Ref(), "create")] + Deploy(rec, hooks).events
              + [Logged(Rule), Logged(FailBanner), Logged(Rule)] <= s.st.events
    ensures s.st.events[|s.st.events| - 1] == Deleted(rec.Ref())
  {
    var o := Opened(rec, st);
    var d := Deploy(rec, hooks);
    BannersPrintable();
    var u := Revert(rec, hooks, o.(events := o.events + d.events), Rule, FailBanner);
    StoreRestored(st.store, rec.Ref(), rec);
    EndsWith(st.events + [LogOpened(rec.Ref(), "create")] + d.events + [Logged(Rule), Logged(FailBanner), Logged(Rule)],
             Purge(rec, hooks).events, Deleted(rec.Ref()));
    Step(u, d.out)
  }

  /** A trace extended by some events and then one more starts with the old trace and ends with the last event. */
  lemma EndsWith(pre: seq<Event>, mid: seq<Event>, last: Event)
    ensures pre <= pre + mid + [last]
    ensures (pre + mid + [last])[|pre + mid + [last]| - 1] == last
  {
  }

  /** `create` after a deploy that returned: close the log and keep the record. */
  function Commit(rec: Record, hooks: Hooks, st: State): (s: Step)
    requires Deploy(rec, hooks).out.Ok?
    ensures s.out.Ok? && s.st.store == st.store[rec.Ref() := rec] && rec.Ref() in s.st.store
    ensures s.st.events == st.events + [LogOpened(rec.Ref(), "create")] + Deploy(rec, hooks).events + [LogEnded(rec.Ref())]
  {
    var o := Opened(rec, st);
    var d := Deploy(rec, hooks);
    Step(o.(events := o.events + d.events + [LogEnded(rec.Ref())]), Ok)
  }

  /** `_check_config`: the sysadmin email must be configured before any action. */
  function CheckConfig(email: Option<string>): (r: Outcome)
    ensures r.Ok? <==> Truthy(email)
    ensures r.Raised? ==> r.error == MissingSysadminEmail
  {
    if Truthy(email) then Ok else Raised(MissingSysadminEmail)
  }

  /** `create(vals)` for a new record `rec`, with `email` the configured sysadmin email. */
  function Create(rec: Record, email: Option<string>, hooks: Hooks, st: State): (s: Step)
    requires rec.Ref() !in st.store
    ensures !Truthy(email) ==> s == Step(st, Raised(MissingSysadminEmail))
    ensures s.out.Ok? <==> rec.Ref() in s.st.store
    ensures s.out.Ok? ==> s.st.store == st.store[rec.Ref() := rec]
    ensures s.out.Ok? ==> s.st.events == st.events + [LogOpened(rec.Ref(), "create")] + Deploy(rec, hooks).events + [LogEnded(rec.Ref())]
    ensures s.out.Raised? ==> s.st.store == st.store
    ensures s.out.Raised? && Truthy(email) ==> NoLogTrace(s.st, rec)
    ensures Truthy(email) ==> s.out == Deploy(rec, hooks).out
    ensures Truthy(email) && s.out.Raised? ==>
              && st.events + [LogOpened(rec.Ref(), "create")] + Deploy(rec, hooks).events
                   + [Logged(Rule), Logged(FailBanner), Logged(Rule)] <= s.st.events
              && s.st.events[|s.st.events| - 1] == Deleted(rec.Ref())
  {
    var check := CheckConfig(email);
    if check.Raised? then Step(st, check)
    else if Deploy(rec, hooks).out.Raised? then RollBack(rec, hooks, st)
    else Commit(rec, hooks, st)
  }

  /** All or nothing: after `create`, the record is stored exactly when every hook of its deploy returned. */
  lemma CreateAllOrNothing(rec: Record, email: Option<string>, hooks: Hooks, st: State)
    requires rec.Ref() !in st.store && Truthy(email)
    ensures var s := Create(rec, email, hooks, st);
            rec.Ref() in s.st.store <==> PurgeOk(rec, hooks) && hooks.provision(rec).Ok?
  {
  }
}

=== FILE: passwords.dfy ===
/**
 `generate_random_password(size)`: `size` characters, each picked from the
 upper-case letters, the lower-case letters and the digits. The random
 choice is an input: `draw(i)` is the number drawn for position i.
 */
module Passwords {

  /** `n` consecutive characters starting at `first`. */
  function Run(first: char, n: nat): (r: string)
    requires first as int + n <= 128
    ensures |r| == n
    ensures forall i :: 0 <= i < n ==> r[i] as int == first as int + i
  {
    seq(n, i requires 0 <= i < n => (first as int + i) as char)
  }

  /** `string.ascii_uppercase`, `string.ascii_lowercase`, `string.digits`. */
  const Uppercase: string := Run('A', 26)
  const Lowercase: string := Run('a', 26)
  const Digits: string := Run('0', 10)

  /** The alphabet the password is drawn from, in the source's order. */
  const Alphabet: string := Uppercase + Lowercase + Digits

  /** An ASCII letter or digit. */
  predicate IsAlnum(c: char) {
    ('A' <= c <= 'Z') || ('a' <= c <= 'z') || ('0' <= c <= '9')
  }

  /** The position of a letter or digit in the alphabet. */
  function IndexOf(c: char): (k: nat)
    requires IsAlnum(c)
    ensures k < |Alphabet| && Alphabet[k] == c
  {
    if 'A' <= c <= 'Z' then
      assert Alphabet[c as int - 'A' as int] == Uppercase[c as int - 'A' as int];
      c as int - 'A' as int
    else if 'a' <= c <= 'z' then
      assert Alphabet[26 + c as int - 'a' as int] == Lowercase[c as int - 'a' as int];
      26 + c as int - 'a' as int
    else
      assert Alphabet[52 + c as int - '0' as int] == Digits[c as int - '0' as int];
      52 + c as int - '0' as int
  }

  /** The alphabet is exactly the 62 letters and digits. */
  lemma AlphabetIsAlnum()
    ensures |Alphabet| == 62
    ensures forall i :: 0 <= i < |Alphabet| ==> IsAlnum(Alphabet[i])
    ensures forall c :: IsAlnum(c) ==> c in Alphabet
  {
    forall i | 0 <= i < |Alphabet| ensures IsAlnum(Alphabet[i]) {
      if i < 26 {
        assert Alphabet[i] == Uppercase[i];
      } else if i < 52 {
        assert Alphabet[i] == Lowercase[i - 26];
      } else {
        assert Alphabet[i] == Digits[i - 52];
      }
    }
    forall c | IsAlnum(c) ensures c in Alphabet {
      var k := IndexOf(c);
      assert Alphabet[k] == c;
    }
  }

  /** The password for the draws `draw(0)`, ..., `draw(size - 1)`; `range` of a negative size is empty. */
  function Password(size: int, draw: nat -> nat): (r: string)
    ensures |r| == if size > 0 then size else 0
    ensures forall i :: 0 <= i < |r| ==> r[i] == Alphabet[draw(i) % |Alphabet|]
    decreases size
  {
    if size <= 0 then ""
    else Password(size - 1, draw) + [Alphabet[draw(size - 1) % |Alphabet|]]
  }

  /** Every password consists of letters and digits only. */
  lemma PasswordIsAlnum(size: int, draw: nat -> nat)
    ensures forall i :: 0 <= i < |Password(size, draw)| ==> IsAlnum(Password(size, draw)[i])
  {
  }

  /** Drawing a character's own index picks that character. */
  lemma IndexPicks(c: char)
    requires IsAlnum(c)
    ensures Alphabet[IndexOf(c) % |Alphabet|] == c
  {
    AlphabetIsAlnum();
    var k := IndexOf(c);
    assert k % 62 == k;
  }

  /** Draws that pick the characters of `s` one by one produce `s`. */
  lemma PasswordMatches(s: string, draw: nat -> nat)
    requires forall i :: 0 <= i < |s| ==> Alphabet[draw(i) % |Alphabet|] == s[i]
    ensures Password(|s|, draw) == s
  {
  }

  /** The draws that spell `s`. */
  function DrawFor(s: string): nat -> nat {
    (i: nat) => if i < |s| && IsAlnum(s[i]) then IndexOf(s[i]) else 0
  }

  /**
   Every string of letters and digits is a possible password: some sequence
   of draws produces exactly it.
   */
  lemma EveryAlnumStringReachable(s: string)
    requires forall i :: 0 <= i < |s| ==> IsAlnum(s[i])
    ensures exists draw: nat -> nat :: Password(|s|, draw) == s
  {
    var draw := DrawFor(s);
    forall i | 0 <= i < |s| ensures Alphabet[draw(i) % |Alphabet|] == s[i] {
      IndexPicks(s[i]);
    }
    PasswordMatches(s, draw);
  }
}

=== FILE: records.dfy ===
/**
 Managed records of the clouder.model family and the rule that decides which
 host a record's commands run on.
 */
module Records {
  import opened Wrappers

  /** The model name of containers: the one kind of record that runs on another host. */
  const ContainerModel: string := "clouder.container"

  /** The model name of the host records containers point to through `server_id`. */
  const ServerModel: string := "clouder.server"

  /** The identity of a record: its model and its database id. */
  datatype RecordRef = RecordRef(model: string, id: nat)

  /** A link record owned by a managed record; it has its own `deploy_`/`purge_` hooks. */
  datatype Link = Link(model: string, id: nat)

  /** The `server_id` target of a container: a clouder.server record. */
  datatype Server = Server(id: nat, name: string)

  /**
   A managed record. `server` is the container's `server_id` (empty when not
   set); `links` is `link_ids`, or None for a model without that field.
   */
  datatype Record = Record(model: string, id: nat, name: string,
                           server: Option<Server>, links: Option<seq<Link>>)
  {
    function Ref(): RecordRef {
      RecordRef(model, id)
    }
  }

  /** A record seen as the machine a connection goes to. */
  datatype Host = Host(ref: RecordRef, name: string)

  /** A record acting as its own host. */
  function SelfHost(r: Record): Host {
    Host(r.Ref(), r.name)
  }

  /**
   The host `connect` targets: a container's server, every other record
   itself. None for a container whose `server_id` is empty.
   */
  function HostOf(r: Record): (h: Option<Host>)
    ensures r.model != ContainerModel ==> h == Some(SelfHost(r))
    ensures r.model == ContainerModel ==>
              (h.Some? <==> r.server.Some?) &&
              (h.Some? ==> h.value.ref.model == ServerModel && h.value.name == r.server.value.name)
  {
    if r.model == ContainerModel then
      match r.server
      case None => None
      case Some(s) => Some(Host(RecordRef(ServerModel, s.id), s.name))
    else Some(SelfHost(r))
  }

  /** `self != server`: the record runs inside a nested process on its host. */
  predicate IsNested(r: Record, host: Host) {
    host != SelfHost(r)
  }

  /** The identity comparison amounts to a rule on the record's kind: nested exactly for containers. */
  lemma NestedIffContainer(r: Record)
    requires HostOf(r).Some?
    ensures IsNested(r, HostOf(r).value) <==> r.model == ContainerModel
  {
  }
}

=== FILE: session_pool.dfy ===
/**
 The process-wide cache of SSH sessions behind `connect`. The ssh-config
 lookup and the connect attempt are inputs: `config` is what the user's
 ~/.ssh/config says per host alias, `dial` is what connecting answers.
 */
module SessionPool {
  import opened Wrappers
  import opened Text
  import opened Records

  /** An open SSH client; `alive` is whether its `_transport` is still set. */
  datatype Session = Session(handle: nat, alive: bool)

  /** The global `ssh_connections` dictionary. */
  type Cache = map<string, Session>

  /** The `identityfile` value of a config entry: one path, a list of paths, or something else. */
  datatype IdentityValue = Path(path: string) | Paths(paths: seq<string>) | NotText

  /** The keys of an ssh-config lookup this core reads (None when the key is absent). */
  datatype ConfigEntry = ConfigEntry(identityFile: Option<IdentityValue>, user: Option<string>,
                                     port: Option<string>)

  /** The parsed ~/.ssh/config, by host alias. */
  type SshConfig = map<string, ConfigEntry>

  /** The arguments of `ssh.connect`. */
  datatype DialRequest = DialRequest(target: string, port: int, username: string, keyFile: string)

  /** What a connect attempt gives: a session, or the text of the exception it raised. */
  datatype DialOutcome = Connected(session: Session) | Refused(reason: string)

  /** The ways `connect` fails. */
  datatype ConnectError =
    | MissingServer(name: string)        // a container without server_id
    | NoIdentityFile(name: string)       // no identityfile for the host; carries the record's own name
    | MissingConfigKey(key: string)      // 'user' or 'port' needed from the config but absent
    | EmptyIdentityList                  // identityfile is an empty list
    | MalformedIdentityFile              // identityfile is neither text nor a list
    | ConnectFailed(target: string, reason: string)

  /** A successful `connect`: the session, the host, the cache afterwards and the lines logged. */
  datatype Acquired = Acquired(session: Session, host: Host, cache: Cache, logged: seq<string>)

  /** `'_' + a` when the argument is truthy, nothing otherwise. */
  function Suffix(a: Option<string>): string {
    if Truthy(a) then "_" + a.value else ""
  }

  /** The cache key: host name, then `_port`, then `_username`, each only when the caller gave it. */
  function CacheKey(hostName: string, port: Option<string>, username: Option<string>): (k: string)
    ensures hostName <= k
    ensures k == hostName <==> !Truthy(port) && !Truthy(username)
    ensures Truthy(port) ==> k[|hostName|] == '_' && hostName + "_" + port.value <= k
    ensures !Truthy(port) && Truthy(username) ==> k == hostName + "_" + username.value
  {
    var p, u := Suffix(port), Suffix(username);
    var k := hostName + p + u;
    assert |k| == |hostName| + |p| + |u|;
    assert Truthy(port) ==> |p| > 0 && k == (hostName + "_" + port.value) + u;
    k
  }

  /** The arguments the caller gave, as a list. */
  function Given(a: Option<string>): seq<string> {
    if Truthy(a) then [a.value] else []
  }

  /** The key is the `_`-join of the host name and the given arguments. */
  lemma CacheKeyIsJoin(hostName: string, port: Option<string>, username: Option<string>)
    ensures CacheKey(hostName, port, username) == Join([hostName] + Given(port) + Given(username), '_')
  {
    var parts := [hostName] + Given(port) + Given(username);
    if Truthy(port) && Truthy(username) {
      var tail := [port.value, username.value];
      assert tail[1..] == [username.value];
      assert Join(tail, '_') == port.value + "_" + username.value;
      JoinAppend([hostName], tail, '_');
      assert parts == [hostName] + tail;
    } else if Truthy(port) {
      assert parts == [hostName, port.value];
    } else if Truthy(username) {
      assert parts == [hostName, username.value];
    } else {
      assert parts == [hostName];
    }
  }

  /**
   When no part contains `_` the key can be taken apart again: its pieces are
   the host name followed by the given arguments, so the host is recoverable.
   */
  lemma CacheKeyDecodes(hostName: string, port: Option<string>, username: Option<string>)
    requires '_' !in hostName
    requires Truthy(port) ==> '_' !in port.value
    requires Truthy(username) ==> '_' !in username.value
    ensures Split(CacheKey(hostName, port, username), '_') == [hostName] + Given(port) + Given(username)
    ensures Split(CacheKey(hostName, port, username), '_')[0] == hostName
  {
    var parts := [hostName] + Given(port) + Given(username);
    CacheKeyIsJoin(hostName, port, username);
    assert Avoids(parts, '_') by {
      forall i | 0 <= i < |parts| ensures '_' !in parts[i] {
        if i > 0 {
          assert parts[i] in Given(port) + Given(username);
        }
      }
    }
    SplitJoin(parts, '_');
  }

  /** The key does not record which argument a suffix came from: port-only and username-only calls collide. */
  lemma CacheKeyAmbiguous(hostName: string, x: string)
    requires x != ""
    ensures CacheKey(hostName, Some(x), None) == CacheKey(hostName, None, Some(x))
  {
  }

  /** What `ssh_config.lookup(alias)` gives; an alias with no entry has none of the keys. */
  function Lookup(config: SshConfig, alias: string): ConfigEntry {
    if alias in config then config[alias] else ConfigEntry(None, None, None)
  }

  /** `if not arg: arg = user_config[key]`: the caller's value if truthy, else the config's. */
  function Fill(arg: Option<string>, configured: Option<string>, key: string): (r: Result<string, ConnectError>)
    ensures Truthy(arg) ==> r == Success(arg.value)
    ensures !Truthy(arg) && configured.Some? ==> r == Success(configured.value)
    ensures r.Failure? <==> !Truthy(arg) && configured.None?
    ensures r.Failure? ==> r.error == MissingConfigKey(key)
  {
    if Truthy(arg) then Success(arg.value)
    else match configured
      case None => Failure(MissingConfigKey(key))
      case Some(v) => Success(v)
  }

  /** The key file to use: a list-valued identityfile uses its first element. */
  function KeyFile(v: IdentityValue): (r: Result<string, ConnectError>)
    ensures v.Paths? && |v.paths| > 0 ==> r == Success(v.paths[0])
    ensures v.Path? ==> r == Success(v.path)
    ensures r.Failure? <==> v.NotText? || (v.Paths? && |v.paths| == 0)
    ensures v.NotText? ==> r == Failure(MalformedIdentityFile)
    ensures v.Paths? && |v.paths| == 0 ==> r == Failure(EmptyIdentityList)
  {
    match v
    case Path(p) => Success(p)
    case Paths(ps) => if |ps| > 0 then Success(ps[0]) else Failure(EmptyIdentityList)
    case NotText => Failure(MalformedIdentityFile)
  }

  /** A decimal digit. */
  predicate IsDigit(c: char) {
    '0' <= c <= '9'
  }

  /** The value of a run of decimal digits, most significant first. */
  function DigitsValue(s: string): (n: nat)
    requires forall i :: 0 <= i < |s| ==> IsDigit(s[i])
    ensures |s| == 1 ==> n == s[0] as int - '0' as int
    ensures |s| > 0 ==> n % 10 == s[|s| - 1] as int - '0' as int
    decreases |s|
  {
    if |s| == 0 then 0
    else assert IsDigit(s[|s| - 1]); DigitsValue(s[..|s| - 1]) * 10 + (s[|s| - 1] as int - '0' as int)
  }

  /** `int(port)`: a non-empty run of digits, or None where Python raises ValueError. */
  function ParsePort(s: string): (r: Option<int>)
    ensures r.Some? <==> |s| > 0 && forall i :: 0 <= i < |s| ==> IsDigit(s[i])
    ensures r.Some? ==> r.value >= 0 && r.value == DigitsValue(s)
  {
    if |s| > 0 && forall i :: 0 <= i < |s| ==> IsDigit(s[i]) then Some(DigitsValue(s)) else None
  }

  /** The line `connect` logs before dialling. */
  function ConnectLine(username: string, hostName: string, port: string): (l: string)
    ensures username != "" ==> "connect: ssh " + username + "@" + hostName <= l
    ensures username == "" ==> "connect: ssh " + hostName <= l
    ensures port != "" ==> |l| >= 4 + |port| && l[|l| - |port| - 4..] == " -p " + port
    ensures port == "" ==> |l| >= |hostName| && l[|l| - |hostName|..] == hostName
    ensures |l| == 13 + (if username != "" then |username| + 1 else 0) + |hostName|
                      + (if port != "" then 4 + |port| else 0)
  {
    "connect: ssh " + (if username != "" then username + "@" else "") + hostName
      + (if port != "" then " -p " + port else "")
  }

  /** The connect request built from the config entry, or the error raised while building it. */
  function Plan(rec: Record, host: Host, port: Option<string>, username: Option<string>,
                entry: ConfigEntry): (r: Result<DialRequest, ConnectError>)
    ensures entry.identityFile.None? ==> r == Failure(NoIdentityFile(rec.name))
    ensures r.Success? <==>
              && entry.identityFile.Some?
              && KeyFile(entry.identityFile.value).Success?
              && Fill(username, entry.user, "user").Success?
              && Fill(port, entry.port, "port").Success?
              && ParsePort(Fill(port, entry.port, "port").value).Some?
    ensures r.Success? ==>
              && entry.identityFile.Some?
              && r.value.target == host.name
              && KeyFile(entry.identityFile.value) == Success(r.value.keyFile)
              && Fill(username, entry.user, "user") == Success(r.value.username)
              && Fill(port, entry.port, "port").Success?
              && ParsePort(Fill(port, entry.port, "port").value) == Some(r.value.port)
    // The configuration errors, in the order the source meets them; a port
    // that is not a number only fails inside the connect attempt.
    ensures entry.identityFile.Some? && Fill(username, entry.user, "user").Failure? ==>
              r == Failure(MissingConfigKey("user"))
    ensures entry.identityFile.Some? && Fill(username, entry.user, "user").Success?
            && Fill(port, entry.port, "port").Failure? ==>
              r == Failure(MissingConfigKey("port"))
    ensures entry.identityFile.Some? && Fill(username, entry.user, "user").Success?
            && Fill(port, entry.port, "port").Success? && KeyFile(entry.identityFile.value).Failure? ==>
              r == Failure(KeyFile(entry.identityFile.value).error)
    ensures entry.identityFile.Some? && Fill(username, entry.user, "user").Success?
            && Fill(port, entry.port, "port").Success? && KeyFile(entry.identityFile.value).Success?
            && ParsePort(Fill(port, entry.port, "port").value).None? ==>
              var p := Fill(port, entry.port, "port").value;
              r == Failure(ConnectFailed(host.name, "invalid literal for int() with base 10: '" + p + "'"))
  {
    match entry.identityFile
    case None => Failure(NoIdentityFile(rec.name))
    case Some(v) =>
      match Fill(username, entry.user, "user")
      case Failure(e) => Failure(e)
      case Success(user) =>
        match Fill(port, entry.port, "port")
        case Failure(e) => Failure(e)
        case Success(p) =>
          match KeyFile(v)
          case Failure(e) => Failure(e)
          case Success(key) =>
            match ParsePort(p)
            case None => Failure(ConnectFailed(host.name, "invalid literal for int() with base 10: '" + p + "'"))
            case Some(n) => Success(DialRequest(host.name, n, user, key))
  }

  /** The line logged on a miss, once the request is built (the port is the filled-in text). */
  function PlanLine(host: Host, port: Option<string>, username: Option<string>, entry: ConfigEntry): string
    requires Fill(username, entry.user, "user").Success? && Fill(port, entry.port, "port").Success?
  {
    ConnectLine(Fill(username, entry.user, "user").value, host.name, Fill(port, entry.port, "port").value)
  }

  /** A miss: build the request, log it, dial. */
  function Open(rec: Record, host: Host, port: Option<string>, username: Option<string>,
                config: SshConfig, dial: DialRequest -> DialOutcome): (r: Result<(Session, seq<string>), ConnectError>)
    ensures r.Success? <==>
              Plan(rec, host, port, username, Lookup(config, host.name)).Success? &&
              dial(Plan(rec, host, port, username, Lookup(config, host.name)).value).Connected?
    ensures r.Success? ==>
              r.value.0 == dial(Plan(rec, host, port, username, Lookup(config, host.name)).value).session
    ensures r.Success? ==> r.value.1 == [PlanLine(host, port, username, Lookup(config, host.name))]
  {
    var entry := Lookup(config, host.name);
    match Plan(rec, host, port, username, entry)
    case Failure(e) => Failure(e)
    case Success(req) =>
      match dial(req)
      case Refused(reason) => Failure(ConnectFailed(host.name, reason))
      case Connected(s) => Success((s, [PlanLine(host, port, username, entry)]))
  }

  /** A live session is cached under `key`. */
  predicate LiveHit(cache: Cache, key: string) {
    key in cache && cache[key].alive
  }

  /** `connect(port, username)` against the current cache. */
  function Connect(rec: Record, port: Option<string>, username: Option<string>, cache: Cache,
                   config: SshConfig, dial: DialRequest -> DialOutcome): (r: Result<Acquired, ConnectError>)
    ensures HostOf(rec).None? <==> r == Failure(MissingServer(rec.name))
    ensures r.Success? ==> HostOf(rec) == Some(r.value.host)
    ensures r.Success? ==>
              var key := CacheKey(r.value.host.name, port, username);
              r.value.cache == cache[key := r.value.session]
    ensures HostOf(rec).Some? && LiveHit(cache, CacheKey(HostOf(rec).value.name, port, username)) ==>
              var key := CacheKey(HostOf(rec).value.name, port, username);
              r == Success(Acquired(cache[key], HostOf(rec).value, cache, []))
    ensures HostOf(rec).Some? && !LiveHit(cache, CacheKey(HostOf(rec).value.name, port, username)) ==>
              var host := HostOf(rec).value;
              var attempt := Open(rec, host, port, username, config, dial);
              && (r.Success? <==> attempt.Success?)
              && (r.Success? ==> r.value.session == attempt.value.0 && r.value.logged == attempt.value.1)
  {
    match HostOf(rec)
    case None => Failure(MissingServer(rec.name))
    case Some(host) =>
      var key := CacheKey(host.name, port, username);
      if LiveHit(cache, key) then
        assert cache[key := cache[key]] == cache;
        Success(Acquired(cache[key], host, cache, []))
      else
        match Open(rec, host, port, username, config, dial)
        case Failure(e) => Failure(e)
        case Success(attempt) => Success(Acquired(attempt.0, host, cache[key := attempt.0], attempt.1))
  }

  /** A miss stores the new session under the key and leaves every other key as it was. */
  lemma MissTouchesOnlyKey(rec: Record, port: Option<string>, username: Option<string>, cache: Cache,
                           config: SshConfig, dial: DialRequest -> DialOutcome, other: string)
    requires Connect(rec, port, username, cache, config, dial).Success?
    requires other != CacheKey(Connect(rec, port, username, cache, config, dial).value.host.name, port, username)
    ensures var c := Connect(rec, port, username, cache, config, dial).value.cache;
            (other in c <==> other in cache) && (other in cache ==> c[other] == cache[other])
  {
  }

  /** Acquiring the same key again while the session is alive returns the same session and a cache left as is. */
  lemma RepeatAcquireReuses(rec: Record, port: Option<string>, username: Option<string>, cache: Cache,
                            config: SshConfig, config': SshConfig,
                            dial: DialRequest -> DialOutcome, dial': DialRequest -> DialOutcome)
    requires Connect(rec, port, username, cache, config, dial).Success?
    requires Connect(rec, port, username, cache, config, dial).value.session.alive
    ensures var first := Connect(rec, port, username, cache, config, dial).value;
            var second := Connect(rec, port, username, first.cache, config', dial');
            second == Success(Acquired(first.session, first.host, first.cache, []))
  {
  }

  /** A dead cached session is replaced by the one the new connect attempt gives. */
  lemma DeadSessionReplaced(rec: Record, port: Option<string>, username: Option<string>, cache: Cache,
                            config: SshConfig, dial: DialRequest -> DialOutcome)
    requires HostOf(rec).Some?
    requires var key := CacheKey(HostOf(rec).value.name, port, username);
             key in cache && !cache[key].alive
    requires var host := HostOf(rec).value;
             var req := Plan(rec, host, port, username, Lookup(config, host.name));
             req.Success? && dial(req.value).Connected?
    ensures var host := HostOf(rec).value;
            var key := CacheKey(host.name, port, username);
            var r := Connect(rec, port, username, cache, config, dial);
            r.Success? &&
            r.value.session == dial(Plan(rec, host, port, username, Lookup(config, host.name)).value).session &&
            r.value.cache[key] == r.value.session
  {
  }

  /** With no identityfile for the host, acquisition fails whenever the cache has no live session for the key. */
  lemma NoIdentityFails(rec: Record, port: Option<string>, username: Option<string>, cache: Cache,
                        config: SshConfig, dial: DialRequest -> DialOutcome)
    requires HostOf(rec).Some?
    requires !LiveHit(cache, CacheKey(HostOf(rec).value.name, port, username))
    requires Lookup(config, HostOf(rec).value.name).identityFile.None?
    ensures Connect(rec, port, username, cache, config, dial) == Failure(NoIdentityFile(rec.name))
  {
  }

  /** A refused connect attempt makes acquisition fail; the cache is not replaced. */
  lemma RefusedDialFails(rec: Record, port: Option<string>, username: Option<string>, cache: Cache,
                         config: SshConfig, dial: DialRequest -> DialOutcome)
    requires HostOf(rec).Some?
    requires !LiveHit(cache, CacheKey(HostOf(rec).value.name, port, username))
    requires var host := HostOf(rec).value;
             var req := Plan(rec, host, port, username, Lookup(config, host.name));
             req.Success? && dial(req.value).Refused?
    ensures var host := HostOf(rec).value;
            Connect(rec, port, username, cache, config, dial) ==
            Failure(ConnectFailed(host.name, dial(Plan(rec, host, port, username, Lookup(config, host.name)).value).reason))
  {
  }

  /**
   The key is fixed by the caller's arguments: whatever two configurations say,
   two successful acquisitions for the same record store under the same key.
   */
  lemma KeyIgnoresConfig(rec: Record, port: Option<string>, username: Option<string>, cache: Cache,
                         config: SshConfig, config': SshConfig,
                         dial: DialRequest -> DialOutcome, dial': DialRequest -> DialOutcome)
    requires Connect(rec, port, username, cache, config, dial).Success?
    requires Connect(rec, port, username, cache, config', dial').Success?
    ensures var a := Connect(rec, port, username, cache, config, dial).value;
            var b := Connect(rec, port, username, cache, config', dial').value;
            a.cache.Keys == b.cache.Keys && a.host == b.host
  {
  }
}

=== FILE: text.dfy ===
/**
 Strings as the Python source handles them: truthiness of optional string
 arguments, `sep.join(...)`, splitting at a separator, and the
 `string.printable` filter applied to log messages.
 */
module Text {
  import opened Wrappers

  /** Python truthiness of an optional string argument: only a non-empty string is true. */
  predicate Truthy(a: Option<string>) {
    a.Some? && a.value != ""
  }

  /** The total length of the elements of `xs`. */
  function TotalLength(xs: seq<string>): nat
    decreases |xs|
  {
    if |xs| == 0 then 0 else |xs[0]| + TotalLength(xs[1..])
  }

  /**
   `[sep].join(xs)` for a one-character separator: the elements in order with
   one separator between neighbours, starting with the first element.
   */
  function Join(xs: seq<string>, sep: char): (r: string)
    ensures |xs| == 0 ==> r == ""
    ensures |xs| > 0 ==> xs[0] <= r
    ensures |xs| > 1 ==> |r| > |xs[0]| && r[|xs[0]|] == sep
    decreases |xs|
  {
    if |xs| == 0 then ""
    else if |xs| == 1 then xs[0]
    else xs[0] + [sep] + Join(xs[1..], sep)
  }

  /** `s.split(sep)`: the pieces between occurrences of `sep`, empty pieces kept. */
  function Split(s: string, sep: char): (r: seq<string>)
    ensures |r| >= 1
    decreases |s|
  {
    if |s| == 0 then [""]
    else
      var rest := Split(s[1..], sep);
      if s[0] == sep then [""] + rest
      else [[s[0]] + rest[0]] + rest[1..]
  }

  /** The join is as long as its elements together plus one separator between each neighbouring pair. */
  lemma {:induction false} JoinLength(xs: seq<string>, sep: char)
    requires |xs| > 0
    ensures |Join(xs, sep)| == TotalLength(xs) + |xs| - 1
    decreases |xs|
  {
    if |xs| > 1 {
      JoinLength(xs[1..], sep);
    }
  }

  /** No element of `xs` contains the character `c`. */
  predicate Avoids(xs: seq<string>, c: char) {
    forall i :: 0 <= i < |xs| ==> c !in xs[i]
  }

  /** A character that is neither the separator nor in any element is not in the join. */
  lemma {:induction false} JoinAvoids(xs: seq<string>, sep: char, c: char)
    requires c != sep && Avoids(xs, c)
    ensures c !in Join(xs, sep)
    decreases |xs|
  {
    if |xs| > 1 {
      JoinAvoids(xs[1..], sep, c);
    }
  }

  /** Joining two non-empty lists puts exactly one separator between their joins. */
  lemma {:induction false} JoinAppend(a: seq<string>, b: seq<string>, sep: char)
    requires |a| > 0 && |b| > 0
    ensures Join(a + b, sep) == Join(a, sep) + [sep] + Join(b, sep)
    decreases |a|
  {
    if |a| == 1 {
      assert a + b == [a[0]] + b;
      assert (a + b)[1..] == b;
    } else {
      assert (a + b)[1..] == a[1..] + b;
      JoinAppend(a[1..], b, sep);
    }
  }

  /** Replacing a non-empty group of elements by their join does not change the overall join. */
  lemma {:induction false} JoinFlatten(a: seq<string>, ws: seq<string>, b: seq<string>, sep: char)
    requires |ws| > 0
    ensures Join(a + [Join(ws, sep)] + b, sep) == Join(a + ws + b, sep)
    decreases |a|
  {
    if |a| == 0 {
      assert a + [Join(ws, sep)] + b == [Join(ws, sep)] + b;
      assert a + ws + b == ws + b;
      if |b| > 0 {
        JoinAppend(ws, b, sep);
        JoinAppend([Join(ws, sep)], b, sep);
      } else {
        assert ws + b == ws;
      }
    } else {
      JoinFlatten(a[1..], ws, b, sep);
      var l := a + [Join(ws, sep)] + b;
      var m := a + ws + b;
      assert l == [a[0]] + (a[1..] + [Join(ws, sep)] + b);
      assert m == [a[0]] + (a[1..] + ws + b);
      JoinAppend([a[0]], a[1..] + [Join(ws, sep)] + b, sep);
      JoinAppend([a[0]], a[1..] + ws + b, sep);
    }
  }

  /** A string without the separator splits into itself alone. */
  lemma {:induction false} SplitNoSep(a: string, sep: char)
    requires sep !in a
    ensures Split(a, sep) == [a]
    decreases |a|
  {
    if |a| > 0 {
      SplitNoSep(a[1..], sep);
      assert [a[0]] + a[1..] == a;
    }
  }

  /** Splitting at the first separator: the piece before it, then the split of the rest. */
  lemma {:induction false} SplitAfter(a: string, b: string, sep: char)
    requires sep !in a
    ensures Split(a + [sep] + b, sep) == [a] + Split(b, sep)
    decreases |a|
  {
    var s := a + [sep] + b;
    if |a| == 0 {
      assert s == [sep] + b;
      assert s[1..] == b;
    } else {
      assert s[1..] == a[1..] + [sep] + b;
      SplitAfter(a[1..], b, sep);
      assert [a[0]] + a[1..] == a;
    }
  }

  /** Split undoes Join when no element contains the separator. */
  lemma {:induction false} SplitJoin(xs: seq<string>, sep: char)
    requires |xs| > 0 && Avoids(xs, sep)
    ensures Split(Join(xs, sep), sep) == xs
    decreases |xs|
  {
    if |xs| == 1 {
      SplitNoSep(xs[0], sep);
    } else {
      SplitJoin(xs[1..], sep);
      SplitAfter(xs[0], Join(xs[1..], sep), sep);
      assert [xs[0]] + xs[1..] == xs;
    }
  }

  /** Join undoes Split on every string. */
  lemma {:induction false} JoinSplit(s: string, sep: char)
    ensures Join(Split(s, sep), sep) == s
    decreases |s|
  {
    if |s| > 0 {
      var rest := Split(s[1..], sep);
      JoinSplit(s[1..], sep);
      if s[0] == sep {
        assert Split(s, sep) == [""] + rest;
        JoinAppend([""], rest, sep);
        assert s == [sep] + s[1..];
      } else {
        var head := [s[0]] + rest[0];
        assert Split(s, sep) == [head] + rest[1..];
        if |rest| == 1 {
          assert rest == [rest[0]];
          assert s == [s[0]] + s[1..];
        } else {
          JoinAppend([head], rest[1..], sep);
          JoinAppend([rest[0]], rest[1..], sep);
          assert rest == [rest[0]] + rest[1..];
          assert s == [s[0]] + s[1..];
        }
      }
    }
  }

  /** Membership in Python 2's `string.printable`: the six whitespace characters and ' ' through '~'. */
  predicate IsPrintable(c: char) {
    (9 <= c as int <= 13) || (32 <= c as int <= 126)
  }

  /** `filter(lambda x: x in string.printable, s)`. */
  function FilterPrintable(s: string): (r: string)
    ensures |r| <= |s|
    ensures forall i :: 0 <= i < |r| ==> IsPrintable(r[i])
    ensures (forall i :: 0 <= i < |s| ==> IsPrintable(s[i])) ==> r == s
    decreases |s|
  {
    if |s| == 0 then ""
    else if IsPrintable(s[0]) then [s[0]] + FilterPrintable(s[1..])
    else FilterPrintable(s[1..])
  }

  /** The filter works character by character: filtering a concatenation filters each part. */
  lemma {:induction false} FilterConcat(a: string, b: string)
    ensures FilterPrintable(a + b) == FilterPrintable(a) + FilterPrintable(b)
    decreases |a|
  {
    if |a| == 0 {
      assert a + b == b;
    } else {
      assert (a + b)[0] == a[0];
      assert (a + b)[1..] == a[1..] + b;
      FilterConcat(a[1..], b);
      if IsPrintable(a[0]) {
        assert FilterPrintable(a + b) == [a[0]] + FilterPrintable(a[1..] + b);
      } else {
        assert FilterPrintable(a + b) == FilterPrintable(a[1..] + b);
      }
    }
  }

  /** A single character survives the filter exactly when it is printable. */
  lemma FilterOne(c: char)
    ensures FilterPrintable([c]) == (if IsPrintable(c) then [c] else "")
  {
  }

  /** Filtering twice is the same as filtering once. */
  lemma FilterIdempotent(s: string)
    ensures FilterPrintable(FilterPrintable(s)) == FilterPrintable(s)
  {
  }
}

=== FILE: wrappers.dfy ===
/** Failure-carrying datatypes shared by every module of the model. */
module Wrappers {

  /** A value that may be absent; stands for Python's `False`/`None` or a value. */
  datatype Option<T> = None | Some(value: T)

  /** The value of an operation or the error it raised. */
  datatype Result<R, E> = Success(value: R) | Failure(error: E)
}
